=== FILE: README.md ===
# Font handles and their memoizing query layer

This project models the core of a Deno font library that wraps the `fontdue`
rasterization engine compiled to WebAssembly, and proves properties of that model.
The model has two halves.

* **The bindings** (`src/lib.rs`, modelled in `lib.dfy`). A process-wide registry
  hands out font handles. It is a 32-bit counter `INDEX` plus a map `FONTS` from
  handle to parsed font. Each query looks its handle up, panicking on an unknown
  handle, and asks the engine. The `From` conversions copy the engine's metric
  records into the records handed to JavaScript.
* **The JavaScript facade** (`mod.ts`, modelled in `memoize.dfy` and `fonts.dfy`).
  `Font` passes every query straight to the bindings. `FontCached` installs one
  memoized closure per query. `memoize` keeps a single slot for a function of no
  parameters. For any other function it keeps a record keyed by the arguments
  joined with commas. A stored `undefined` reads as a miss.

The engine (`fontdue.dfy`) is a record of deterministic function values that the
model takes as a parameter. Its parsed fonts are an opaque type. The one
operation whose workings the model fixes is glyph lookup: a lookup in the
font's character map that falls back to glyph 0. Sizes are JavaScript numbers,
modelled as the bit patterns of doubles (`js.dfy`). The floating-point values the
engine returns are `real` and are only compared, never computed with.

The main results:

* The first `FontCached` call for a cache key returns exactly what the matching
  `Font` query returns. A later call with the same key returns the stored answer.
  That is `Font`'s answer for a SameValueZero-equal size: for the size itself
  unless it is a zero or a NaN. Glyph lookup and units per em always return
  exactly `Font`'s answer. A call changes only its own key's entry.
* The `FontCached` caches run the engine at most once per cache key for a defined
  answer, and not at all once a defined answer is stored. An `undefined` answer is
  recomputed on every call.
* The character-keyed queries are the indexed queries taken at the glyph of the
  string's first code point. Glyph 0 is used when the font lacks that character.
* `from_bytes` hands out the handles 0, 1, 2, … in order. While the counter has not
  wrapped, each handle is fresh and no stored font changes. `new Font` and
  `new FontCached` have exactly this effect on the registry, so fonts loaded
  earlier stay usable.

The cache keys are the comma-joined strings that `mod.ts:30` builds, not tuple keys.
`Memoize.JoinCollides` shows that such keys can collide in general.
`Memoize.JoinInjective`, `Js.IntegerToStringSound` and `Js.PrintsLikeJs` show why the
keys `FontCached` uses collide only for SameValueZero-equal sizes. `Js.ZeroCollision`
shows that 0 and -0 do collide. `Js.PrintsLikeJsSatisfiable` shows that the
assumption made about the host's number printer can be met.

Files: `wrappers.dfy` (Option, Result), `js.dfy`, `fontdue.dfy`, `lib.dfy`,
`memoize.dfy`, `fonts.dfy`.

## Model

| member | source | states |
|---|---|---|
| `Js.ZeroCollision` | mod.ts:30 | a printer that behaves as JavaScript's prints `0` and `-0` (two distinct doubles) as the same text |
| `Js.PrintsLikeJsSatisfiable` | mod.ts:30 | some printer meets the assumptions the cache keys make: no comma, never an inherited property name, equal text exactly for SameValueZero-equal numbers |
| `Js.DigitsInjective` | mod.ts:30 | distinct naturals have distinct decimal digit strings |
| `Js.Digits` | mod.ts:30 | the decimal digits of a natural: at least one, at least two from 10 on, digits only |
| `Js.IntegerToString` | mod.ts:30 | an index's text in the key: a leading minus sign exactly for negative indices, decimal digits after it |
| `Js.IntegerToStringSound` | mod.ts:30 | integral numbers print injectively in decimal, with no comma and never as an inherited property name |
| `Fontdue.LookupGlyphIndex` | mod.ts:257-263 | the glyph index is 0 exactly when the character is not in the font's character map; otherwise it is the mapped glyph |
| `Lib.OutlineBoundsFrom` | src/lib.rs:64-73 | every field of the engine's outline bounds is copied unchanged |
| `Lib.MetricsFrom` | src/lib.rs:40-52 | every field of the engine's metrics is copied unchanged, including the four fields of the bounds |
| `Lib.LineMetricsFrom` | src/lib.rs:85-94 | every field of the engine's line metrics is copied unchanged |
| `Lib.ConversionsLossless` | src/lib.rs:40-94 | two engine records convert to equal binding records if and only if they are equal |
| `Lib.Register` | src/lib.rs:120-121 | the new font is stored under the counter's old value, every other handle keeps its font, and the counter moves to the next value, wrapping from 2^32 - 1 to 0 |
| `Lib.RegisterKeepsInv` | src/lib.rs:119-122 | one successful load keeps the registry invariant (counter = loads mod 2^32, every handle below the load count); below 2^32 loads the new handle is fresh and every stored font keeps its handle |
| `Lib.HandlesBelowCounter` | src/lib.rs:21-25 | while the counter has not wrapped, every stored handle is below the counter and the counter itself is unused |
| `Lib.RegisterAllSequential` | src/lib.rs:119-122 | loading n < 2^32 fonts into the empty registry leaves the counter at n, handles exactly 0..n-1 in use, and the k-th font under handle k |
| `Lib.Registry.constructor` | src/lib.rs:21-25 | the registry starts with counter 0 and no fonts |
| `Lib.Registry.FromBytes` | src/lib.rs:104-126 | on a successful parse: returns the counter's old value, bumps the counter by one modulo 2^32, and stores the font under the returned handle; on a parse error: returns the engine's message and changes nothing; below 2^32 loads the handle is fresh and stored fonts are untouched |
| `Lib.HorizontalLineMetrics` | src/lib.rs:128-141 | requires a registered handle; `undefined` exactly when the engine returns none, else the converted metrics |
| `Lib.VerticalLineMetrics` | src/lib.rs:143-156 | requires a registered handle; `undefined` exactly when the engine returns none, else the converted metrics |
| `Lib.UnitsPerEm` | src/lib.rs:158-161 | requires a registered handle; the engine's units per em for the stored font |
| `Lib.ScaleFactor` | src/lib.rs:163-166 | requires a registered handle; the engine's scale factor for the stored font |
| `Lib.MetricsIndexed` | src/lib.rs:168-179 | requires a registered handle; the engine's metrics for the glyph, converted |
| `Lib.RasterizeIndexed` | src/lib.rs:181-195 | requires a registered handle; the converted engine metrics paired with the engine's bitmap, unmodified |
| `Lib.LookupGlyphIndex` | src/lib.rs:197-205 | requires a registered handle; 0 exactly when the stored font lacks the character, otherwise the mapped glyph |
| `Memoize.Join` | mod.ts:30 | the first argument's text starts the key, and the key is as long as all texts plus one comma between neighbours |
| `Memoize.JoinInjective` | mod.ts:30 | `args.join()` is injective on argument lists of one length whose strings contain no comma |
| `Memoize.JoinCollides` | mod.ts:30 | without that condition keys collide: the single argument `"1,2"` and the pair `"1"`, `"2"` get the same key |
| `Memoize.Memoized.constructor` | mod.ts:13-38 | `memoize(fn)` starts with an empty slot (no parameters) or an empty record (otherwise), and `fn` has not run |
| `Memoize.Memoized.Call` | mod.ts:16-37 | the call returns `fn`'s answer for arguments with the same key (for the arguments themselves when `fn` depends only on the key). On a miss (nothing or `undefined` stored) it runs `fn` once and writes the result under its own key only. On a hit it runs nothing and changes nothing. A key has had exactly one run with a defined answer if its entry is defined, and none otherwise |
| `Memoize.Memoized.CallSlot` | mod.ts:19-25 | the single slot is filled by running `fn` while it holds `undefined`, and returned; the record is untouched |
| `Memoize.Memoized.CallRecord` | mod.ts:29-36 | the entry for `args.join()` is filled by running `fn` while it reads `undefined`, and returned; no other entry changes |
| `Memoize.RecordGet` | mod.ts:27-31 | reading a record created as `{}` gives the own entry if there is one, the inherited `Object.prototype` member for an inherited name, and `undefined` otherwise |
| `Memoize.RecordCall` | mod.ts:29-36 | as written, `fn` runs exactly when the read gives `undefined`; then its answer is stored and returned; otherwise the read value is returned and the record is unchanged |
| `Memoize.InheritedKeyAnsweredWithoutRun` | mod.ts:27-35 | as written, a fresh cache answers the key `"constructor"` with the inherited member and never runs `fn` |
| `Memoize.RecordCallOffPrototype` | mod.ts:27-36 | for any key that is not an inherited name, the record as written behaves like the own-keys cache of `Memoized` |
| `Fonts.ToUint32` | src/lib.rs:108 | a `u32`/`usize` parameter receives the JavaScript integer modulo 2^32, and values already in range unchanged |
| `Fonts.ApplyDefaults` | mod.ts:175-183 | a given option is kept; a missing option, or a missing options object, becomes `enableOffsetBoundingBox = true`, `collectionIndex = 0`, `scale = 40` |
| `Fonts.SettingsFor` | mod.ts:184-189 | the offset bounding box is on unless the caller passes `false`; the collection index is the caller's modulo 2^32, else 0; the scale is the caller's, else 40 |
| `Fonts.DefaultsAgree` | mod.ts:175-183 | no options, an empty options object and the spelled-out defaults load the font with the same settings |
| `Fonts.FirstCodePoint` | src/lib.rs:198 | a `char` parameter receives the string's first code point |
| `Fonts.Font.HorizontalLineMetrics` | mod.ts:196-198 | `undefined` exactly when the engine has no horizontal line metrics, else the converted metrics |
| `Fonts.Font.VerticalLineMetrics` | mod.ts:204-206 | `undefined` exactly when the engine has no vertical line metrics, else the converted metrics |
| `Fonts.Font.UnitsPerEm` | mod.ts:211-213 | the engine's units per em for the font behind the handle |
| `Fonts.Font.ScaleFactor` | mod.ts:218-220 | the engine's scale factor for the font behind the handle |
| `Fonts.Font.Metrics` | mod.ts:227-229 | the engine's metrics at the glyph the string's first code point maps to |
| `Fonts.Font.MetricsIndexed` | mod.ts:235-237 | the engine's metrics at the given index taken modulo 2^32 |
| `Fonts.Font.Rasterize` | mod.ts:244-246 | the engine's metrics and bitmap at the glyph the string's first code point maps to |
| `Fonts.Font.RasterizeIndexed` | mod.ts:253-255 | the engine's metrics and bitmap at the given index taken modulo 2^32 |
| `Fonts.Font.LookupGlyphIndex` | mod.ts:261-263 | the engine's glyph lookup for the string's first code point: 0 exactly when the font lacks it, otherwise the mapped glyph |
| `Fonts.CharacterQueries` | mod.ts:222-263 | a missing character gets glyph 0 and the default glyph's metrics and bitmap; a present one gets its mapped glyph, and that glyph's metrics, converted metrics and bitmap |
| `Fonts.SameFaceSameAnswers` | mod.ts:172-264 | two handles holding the same parsed font answer every query alike, glyph lookup included |
| `Fonts.NewFont` | mod.ts:175-190 | `new Font` succeeds exactly when the engine parses the bytes under the defaulted settings; the handle is the counter's old value, and the registry changes exactly as one `from_bytes` load (earlier fonts kept below 2^32 loads); otherwise the engine's error is raised and nothing changes |
| `Fonts.NumberKeySameValue` | mod.ts:296-299 | two sizes share a one-number key only when they are SameValueZero-equal |
| `Fonts.PairKeySameValue` | mod.ts:300-301 | two `(index, px)` argument lists share a key only when the indices are equal and the sizes SameValueZero-equal |
| `Fonts.NumberKeysNotInherited` | mod.ts:27 | no key of a number-keyed cache names an inherited property, so the plain `{}` record acts as an own-keys cache there |
| `Fonts.StringKeyInjective` | mod.ts:302 | a one-string argument list has its own key |
| `Fonts.InjectiveKeyDetermines` | mod.ts:29-36 | when the key tells arguments apart, the cached answer depends only on the key |
| `Fonts.MemoizeHorizontal` | mod.ts:296 | a fresh, empty cache over `horizontal_line_metrics` on the handle, keyed by the size's text |
| `Fonts.MemoizeVertical` | mod.ts:297 | a fresh, empty cache over `vertical_line_metrics` on the handle, keyed by the size's text |
| `Fonts.MemoizeUnitsPerEm` | mod.ts:298 | a fresh, empty single slot over `units_per_em` on the handle |
| `Fonts.MemoizeScaleFactor` | mod.ts:299 | a fresh, empty cache over `scale_factor` on the handle, keyed by the size's text |
| `Fonts.MemoizeMetricsIndexed` | mod.ts:300 | a fresh, empty cache over `metrics_indexed` on the handle, keyed by the decimal index and the size joined with a comma |
| `Fonts.MemoizeRasterizeIndexed` | mod.ts:301 | a fresh, empty cache over `rasterize_indexed` on the handle, keyed by the decimal index and the size joined with a comma |
| `Fonts.MemoizeLookupGlyphIndex` | mod.ts:302 | a fresh, empty cache over `lookup_glyph_index` on the handle, keyed by the whole string, which decides the answer |
| `Fonts.FontCached.constructor` | mod.ts:296-302 | one fresh memoized closure per query, each empty, over the matching binding on the handle, keyed by its joined arguments |
| `Fonts.FontCached.Create` | mod.ts:280-303 | `new FontCached` succeeds exactly when the engine parses the bytes; the registry changes exactly as one `from_bytes` load, and the object's seven caches are fresh and empty; otherwise the error is raised and nothing changes |
| `Fonts.FontCached.HorizontalLineMetrics` | mod.ts:296 | a miss runs the engine at `px` itself and gives exactly `Font`'s answer; a hit returns the stored answer, which is `Font`'s for a SameValueZero-equal size (so `px` itself unless it is a zero or a NaN); the entry for this key is now the answer; every other key's entry and run count is unchanged; a miss adds one engine run for this key and a hit adds none, so a defined answer has run the engine once more than the `undefined` answers before it (once on a fresh cache), and an `undefined` one runs it again on every call |
| `Fonts.FontCached.VerticalLineMetrics` | mod.ts:297 | as for `HorizontalLineMetrics`, over the vertical line metrics: exact on a miss, the stored answer on a hit, one more engine run per miss and none per hit, other keys unchanged |
| `Fonts.FontCached.UnitsPerEm` | mod.ts:298 | `Font`'s answer; the single slot has run the engine exactly once, and a repeated call runs nothing |
| `Fonts.FontCached.ScaleFactor` | mod.ts:299 | a miss gives exactly `Font`'s answer at `px`; a hit returns the stored answer, `Font`'s for a SameValueZero-equal size (so `px` itself unless it is a zero or a NaN); the entry now holds the answer; every other key's entry and run count is unchanged; the engine has run exactly once for this key, and a repeated call runs nothing |
| `Fonts.FontCached.MetricsIndexed` | mod.ts:300 | a miss gives exactly `Font`'s answer at this index and `px`; a hit returns the stored answer, `Font`'s for a SameValueZero-equal size; the entry now holds the answer; every other key's entry and run count is unchanged; the engine has run exactly once for this key, and a repeated call runs nothing |
| `Fonts.FontCached.RasterizeIndexed` | mod.ts:301 | a miss gives exactly `Font`'s answer at this index and `px`; a hit returns the stored answer, `Font`'s for a SameValueZero-equal size; the entry now holds the answer; every other key's entry and run count is unchanged; the engine has run exactly once for this key, and a repeated call runs nothing |
| `Fonts.FontCached.LookupGlyphIndex` | mod.ts:302 | exactly `Font`'s answer, now stored under the string; every other string's entry and run count is unchanged; the engine has run once for this string, and a repeated call runs nothing |
| `Fonts.FontCached.Metrics` | mod.ts:305-307 | the glyph lookup is cached as by `lookupGlyphIndex`, and `metricsIndexed` is then called at that glyph: a miss there gives exactly `Font.metrics`' answer, a hit the stored answer (`Font`'s for a SameValueZero-equal size); each of the two caches changes only the entry and run count of the key used, which now has run the engine exactly once |
| `Fonts.FontCached.Rasterize` | mod.ts:309-311 | the glyph lookup is cached as by `lookupGlyphIndex`, and `rasterizeIndexed` is then called at that glyph: a miss there gives exactly `Font.rasterize`'s answer, a hit the stored answer (`Font`'s for a SameValueZero-equal size); each of the two caches changes only the entry and run count of the key used, which now has run the engine exactly once |
| `Fonts.FacadesAgree` | mod.ts:266-311 | loading the same bytes as `Font` and then as `FontCached` fails alike with the same message, or succeeds with `plain` being the first handle's `Font` metrics, still registered after the second load, and `cached` the new `FontCached`'s first metrics answer, equal to it at every size |
| `Fonts.FirstMetricsExact` | mod.ts:296-307 | a `FontCached` whose caches are still empty answers `metrics` exactly as `Font` does on a handle holding the same font, zeros and NaNs included, and the answer is now stored in its `metricsIndexed` cache |
| `Fonts.FirstLineMetricsRunOnce` | mod.ts:29-36 | on a fresh object the first `horizontalLineMetrics` call gives exactly `Font`'s answer and has run the engine exactly once for its key, with a defined-answer run counted exactly when the answer is defined |
| `Fonts.RepeatedQueryAgrees` | mod.ts:29-36 | the same `rasterizeIndexed` query asked twice gets the same answer, zeros and NaNs included, and its key has run the engine once |
| `Fonts.OtherKeysKeepRuns` | mod.ts:29-36 | a query at another size leaves the first size's entry and its single engine run in place, so each key runs the engine once over the object's lifetime |

## Left out

- The `fontdue` engine: font parsing, metrics, line metrics and scan conversion appear only as deterministic functions. Glyph lookup is modelled as a lookup in the font's character map with glyph 0 as fallback. The engine's other promises are not stated: that outline bounds lie inside the bitmap box, and that the bitmap has `width * height` bytes.
- Floating point: sizes and the scale are JavaScript numbers as double bit patterns, and the engine's narrowing of them to `f32` happens inside its functions. Advances, bounds and line metrics are `real` and never computed with.
- Js.PrintsLikeJs: the host's number-to-string conversion is a parameter with the properties JavaScript's has; its digits and exponent notation are not modelled.
- Js.IntegerToString: indices are mathematical integers printed in decimal. Non-integral indices, `-0` and indices of magnitude 10^21 or more, which JavaScript prints in exponent notation, are not modelled. The same goes for `collectionIndex`.
- Fonts.FirstCodePoint: the empty string is taken to pass the NUL character, and Dafny characters are Unicode scalar values, so lone surrogates are not modelled.
- Fonts.FontCached.HorizontalLineMetrics: on a hit at a size that is a zero or a NaN, the answer is `Font`'s for whichever SameValueZero-equal size ran first, not necessarily for `px` itself. JavaScript prints `0` and `-0` alike, so the source serves the answer cached for one zero when asked for the other. A miss is exact.
- Fonts.FontCached.VerticalLineMetrics: the same as for `HorizontalLineMetrics`.
- Fonts.FontCached.ScaleFactor: the same as for `HorizontalLineMetrics`.
- Fonts.FontCached.MetricsIndexed: the same as for `HorizontalLineMetrics`.
- Fonts.FontCached.RasterizeIndexed: the same as for `HorizontalLineMetrics`.
- Fonts.FontCached.Metrics: the same as for `HorizontalLineMetrics`. It also composes the corrected own-keys `lookupGlyphIndex` cache. As written, `metrics("constructor", px)` receives the inherited `Object` function as the glyph index at mod.ts:306. So it does not return `Font`'s answer for such names (see the mod.ts:27 row under Findings).
- Fonts.FontCached.Rasterize: the same as for `HorizontalLineMetrics`. It also composes the corrected own-keys `lookupGlyphIndex` cache. As written, `rasterize("constructor", px)` receives the inherited `Object` function as the glyph index at mod.ts:310. So it does not return `Font`'s answer for such names (see the mod.ts:27 row under Findings).
- Fonts.FontCached.LookupGlyphIndex: models the own-keys cache. As written, the source's `{}` record answers inherited names such as `"constructor"` without calling the engine. This is recorded under Findings and modelled by `Memoize.RecordCall`.
- Fonts.FontCached.MetricsIndexed, Fonts.FontCached.RasterizeIndexed, Fonts.FontCached.HorizontalLineMetrics, Fonts.FontCached.VerticalLineMetrics, Fonts.FontCached.Metrics, Fonts.FontCached.Rasterize: answers are immutable values here. In the source a hit returns the very object stored in the cache (mod.ts:32-35), whereas `Font` builds a new object on every call (src/lib.rs:137, 152, 170, 190). A caller that mutates a returned `Metrics`, `LineMetrics` or bitmap therefore changes every later `FontCached` answer for that key. The agreement with `Font` holds only for callers that do not mutate results. Object identity (`===` of two answers) is not modelled.
- The `Mutex` around `FONTS` and the atomicity of `INDEX`: the registry is modelled as single-threaded state.
- wasm-bindgen and serde marshalling (`JsValue::from_serde`, `from_str`) and the one-time `await init(source)`. Values cross the boundary unchanged, except for the 32-bit integer parameters (`Fonts.ToUint32`) and the `char` parameter (`Fonts.FirstCodePoint`).
- The `wee_alloc` allocator and `bench.ts`, a timing harness with file I/O.
- Fonts.FontCached.Create: the closures capture the registry contents at construction instead of reading `FONTS` at each call. The queries therefore require that the live registry still holds the same font under the handle (`Current`). `Lib.Registry.FromBytes` guarantees this until 2^32 fonts have been loaded. After that the counter wraps and a new font replaces the one under handle 0, so a cached answer would no longer match.
- Fonts.FacadesAgree: requires fewer than 2^32 - 1 earlier loads, so that the two handles it loads are distinct and the first is kept.
- Lib.MetricsFrom: `usize` widths and heights are unbounded naturals, so their 32-bit bound in WebAssembly is not stated.
- The ghost counters `runs` and `definedRuns` count calls of the closure handed to `memoize`. Each such call makes exactly one engine call.

## Findings

| source | as written | input that shows it | evidently intended | confidence | as-written member | corrected member |
|---|---|---|---|---|---|---|
| mod.ts:27 | the keyed cache is a plain `{}` record, so a key naming a property inherited from `Object.prototype` reads as a stored answer and `fn` never runs | `new FontCached(bytes).lookupGlyphIndex("constructor")` returns the `Object` function, while `new Font(bytes).lookupGlyphIndex("constructor")` returns the glyph index of `c` | a cache of own keys only (a `Map` or `Object.create(null)`), so that every query returns the engine's answer | not executed; high | `Memoize.InheritedKeyAnsweredWithoutRun` | `Memoize.Memoized.CallRecord` |

=== FILE: fontdue.dfy ===
/**
 * The rasterization engine (the `fontdue` crate) as seen through the bindings:
 * its parsed fonts are opaque, and each of its operations is a deterministic
 * function that the model takes as a parameter. The one place the model
 * fixes how an operation works is glyph lookup, which is a lookup in the
 * font's character map falling back to glyph 0. Sizes arrive as JavaScript
 * numbers; their narrowing to `f32` is part of the engine's functions.
 */
module Fontdue {
  import opened Wrappers
  import Js

  const U32_LIMIT: int := 0x1_0000_0000
  const I32_MIN: int := -0x8000_0000
  const I32_LIMIT: int := 0x8000_0000
  const U16_LIMIT: int := 0x1_0000

  type byte = x: int | 0 <= x < 0x100
  type u32 = x: int | 0 <= x < U32_LIMIT
  type i32 = x: int | I32_MIN <= x < I32_LIMIT
  /** A glyph index stored in a font's character map; fontdue keeps these as `NonZeroU16`. */
  type MappedGlyph = x: int | 1 <= x < U16_LIMIT witness 1

  /** A parsed font (`fontdue::Font`); nothing about its contents is modelled. */
  type Face

  /**
   * `fontdue::FontSettings`. The scale is the number the caller passed; the
   * floating-point values the engine returns are kept as `real` and never
   * computed with.
   */
  datatype Settings = Settings(enableOffsetBoundingBox: bool, collectionIndex: u32, scale: Js.Number)

  /** `fontdue::OutlineBounds`. */
  datatype OutlineBounds = OutlineBounds(xmin: real, ymin: real, width: real, height: real)

  /** `fontdue::Metrics`; `width` and `height` are `usize`. */
  datatype Metrics = Metrics(
    xmin: i32, ymin: i32, width: nat, height: nat,
    advanceWidth: real, advanceHeight: real, bounds: OutlineBounds)

  /** `fontdue::LineMetrics`. */
  datatype LineMetrics = LineMetrics(ascent: real, descent: real, lineGap: real, newLineSize: real)

  /**
   * The engine's operations. Each is a total, deterministic function of its
   * arguments, so calling one twice with equal arguments gives equal answers.
   * `charToGlyph` is the font's character map, from which `LookupGlyphIndex`
   * answers.
   */
  datatype Engine = Engine(
    parse: (seq<byte>, Settings) -> Result<Face, string>,
    charToGlyph: Face -> map<char, MappedGlyph>,
    horizontalLineMetrics: (Face, Js.Number) -> Option<LineMetrics>,
    verticalLineMetrics: (Face, Js.Number) -> Option<LineMetrics>,
    unitsPerEm: Face -> real,
    scaleFactor: (Face, Js.Number) -> real,
    metricsIndexed: (Face, nat, Js.Number) -> Metrics,
    rasterizeIndexed: (Face, nat, Js.Number) -> (Metrics, seq<byte>))

  /**
   * `Font::lookup_glyph_index`: the glyph the character map gives, or the
   * default glyph 0 when the character is not in the font.
   */
  function LookupGlyphIndex(e: Engine, face: Face, c: char): (index: nat)
    ensures index == 0 <==> c !in e.charToGlyph(face)
    ensures c in e.charToGlyph(face) ==> index == e.charToGlyph(face)[c]
    ensures index < U16_LIMIT
  {
    var glyphs := e.charToGlyph(face);
    if c in glyphs then glyphs[c] else 0
  }
}

=== FILE: fonts.dfy ===
/**
 * The JavaScript-facing font objects (mod.ts): the load options and their
 * defaults, `Font`, a pass-through to the bindings, and `FontCached`, which
 * puts every binding call behind its own memoized closure.
 */
module Fonts {
  import opened Wrappers
  import Fontdue
  import Lib
  import opened Memoize
  import Js

  type Number = Js.Number
  type u32 = Fontdue.u32
  type byte = Fontdue.byte
  const U32_LIMIT := Fontdue.U32_LIMIT

  /**
   * What a `u32` or `usize` (32-bit in WebAssembly) parameter receives for an
   * integral JavaScript number: the number modulo 2^32 (`ToUint32`).
   */
  function ToUint32(x: int): (r: u32)
    ensures 0 <= x < U32_LIMIT ==> r == x
    ensures (x - r) % U32_LIMIT == 0
  {
    x % U32_LIMIT
  }

  // ----- Load options -----

  /** `LoadOptions` as a caller may pass it: a field left `undefined` is `None`. */
  datatype LoadOptions = LoadOptions(
    enableOffsetBoundingBox: Option<bool>,
    collectionIndex: Option<int>,
    scale: Option<Number>)

  /** The options after the constructor's defaults are applied. */
  datatype Applied = Applied(enableOffsetBoundingBox: bool, collectionIndex: int, scale: Number)

  const DEFAULT_ENABLE_OFFSET_BOUNDING_BOX: bool := true
  const DEFAULT_COLLECTION_INDEX: int := 0
  const DEFAULT_SCALE: Number := Js.FORTY

  /** The default argument object, used when no options are passed. */
  const DEFAULT_OPTIONS: LoadOptions :=
    LoadOptions(Some(DEFAULT_ENABLE_OFFSET_BOUNDING_BOX), Some(DEFAULT_COLLECTION_INDEX), Some(DEFAULT_SCALE))

  /**
   * The constructor's parameter destructuring: the default object when no
   * options are given, then a per-field default for each field left out.
   */
  function ApplyDefaults(options: Option<LoadOptions>): (r: Applied)
    ensures options.None? ==> r == Applied(true, 0, Js.FORTY)
    ensures options.Some? ==>
      && r.enableOffsetBoundingBox == (if options.value.enableOffsetBoundingBox.Some? then options.value.enableOffsetBoundingBox.value else true)
      && r.collectionIndex == (if options.value.collectionIndex.Some? then options.value.collectionIndex.value else 0)
      && r.scale == (if options.value.scale.Some? then options.value.scale.value else Js.FORTY)
  {
    var o := options.GetOr(DEFAULT_OPTIONS);
    Applied(
      o.enableOffsetBoundingBox.GetOr(DEFAULT_ENABLE_OFFSET_BOUNDING_BOX),
      o.collectionIndex.GetOr(DEFAULT_COLLECTION_INDEX),
      o.scale.GetOr(DEFAULT_SCALE))
  }

  /** The engine settings `fromBytes` is called with. */
  function SettingsFor(options: Option<LoadOptions>): (r: Fontdue.Settings)
    ensures r.enableOffsetBoundingBox <==> options.None? || options.value.enableOffsetBoundingBox != Some(false)
    ensures r.collectionIndex == (if options.Some? && options.value.collectionIndex.Some?
                                  then ToUint32(options.value.collectionIndex.value) else 0)
    ensures r.scale == (if options.Some? && options.value.scale.Some? then options.value.scale.value else Js.FORTY)
  {
    var a := ApplyDefaults(options);
    Fontdue.Settings(a.enableOffsetBoundingBox, ToUint32(a.collectionIndex), a.scale)
  }

  /** Passing no options, an empty options object, or the defaults spelled out all load the font the same way. */
  lemma DefaultsAgree()
    ensures SettingsFor(None) == SettingsFor(Some(LoadOptions(None, None, None)))
    ensures SettingsFor(None) == SettingsFor(Some(DEFAULT_OPTIONS))
    ensures SettingsFor(None) == Fontdue.Settings(true, 0, Js.FORTY)
  {
  }

  /**
   * What a `char` parameter receives for a JavaScript string: its first code
   * point, or the NUL character for the empty string.
   */
  function FirstCodePoint(character: string): (c: char)
    ensures |character| > 0 ==> c == character[0]
    ensures |character| == 0 ==> c == 0 as char
  {
    if |character| == 0 then 0 as char else character[0]
  }

  // ----- Font: every query goes straight to the bindings -----

  /** `Font`: holds only its handle, set once at construction. */
  datatype Font = Font(id: u32)
  {
    /** `undefined` exactly when the engine has no horizontal line metrics for the font. */
    function HorizontalLineMetrics(reg: Lib.Registry, px: Number): (r: Option<Lib.LineMetrics>)
      reads reg
      requires id in reg.fonts
      ensures r.None? <==> reg.engine.horizontalLineMetrics(reg.fonts[id], px).None?
      ensures r.Some? ==> r.value == Lib.LineMetricsFrom(reg.engine.horizontalLineMetrics(reg.fonts[id], px).value)
    {
      Lib.HorizontalLineMetrics(reg.engine, reg.fonts, id, px)
    }

    /** `undefined` exactly when the engine has no vertical line metrics for the font. */
    function VerticalLineMetrics(reg: Lib.Registry, px: Number): (r: Option<Lib.LineMetrics>)
      reads reg
      requires id in reg.fonts
      ensures r.None? <==> reg.engine.verticalLineMetrics(reg.fonts[id], px).None?
      ensures r.Some? ==> r.value == Lib.LineMetricsFrom(reg.engine.verticalLineMetrics(reg.fonts[id], px).value)
    {
      Lib.VerticalLineMetrics(reg.engine, reg.fonts, id, px)
    }

    function UnitsPerEm(reg: Lib.Registry): (r: real)
      reads reg
      requires id in reg.fonts
      ensures r == reg.engine.unitsPerEm(reg.fonts[id])
    {
      Lib.UnitsPerEm(reg.engine, reg.fonts, id)
    }

    function ScaleFactor(reg: Lib.Registry, px: Number): (r: real)
      reads reg
      requires id in reg.fonts
      ensures r == reg.engine.scaleFactor(reg.fonts[id], px)
    {
      Lib.ScaleFactor(reg.engine, reg.fonts, id, px)
    }

    /** Defined as the indexed query at the character's glyph: the engine's metrics for that glyph. */
    function Metrics(reg: Lib.Registry, character: string, px: Number): (r: Lib.Metrics)
      reads reg
      requires id in reg.fonts
      ensures r == Lib.MetricsFrom(reg.engine.metricsIndexed(
                     reg.fonts[id], Fontdue.LookupGlyphIndex(reg.engine, reg.fonts[id], FirstCodePoint(character)), px))
    {
      MetricsIndexed(reg, LookupGlyphIndex(reg, character), px)
    }

    /** The engine's metrics for the glyph at `index` taken modulo 2^32. */
    function MetricsIndexed(reg: Lib.Registry, index: int, px: Number): (r: Lib.Metrics)
      reads reg
      requires id in reg.fonts
      ensures r == Lib.MetricsFrom(reg.engine.metricsIndexed(reg.fonts[id], ToUint32(index), px))
    {
      Lib.MetricsIndexed(reg.engine, reg.fonts, id, ToUint32(index), px)
    }

    /** Defined as the indexed query at the character's glyph: the engine's metrics and bitmap for that glyph. */
    function Rasterize(reg: Lib.Registry, character: string, px: Number): (r: Lib.RasterizeResult)
      reads reg
      requires id in reg.fonts
      ensures var raw := reg.engine.rasterizeIndexed(
                reg.fonts[id], Fontdue.LookupGlyphIndex(reg.engine, reg.fonts[id], FirstCodePoint(character)), px);
              r.metrics == Lib.MetricsFrom(raw.0) && r.bitmap == raw.1
    {
      RasterizeIndexed(reg, LookupGlyphIndex(reg, character), px)
    }

    /** The engine's metrics and bitmap for the glyph at `index` taken modulo 2^32. */
    function RasterizeIndexed(reg: Lib.Registry, index: int, px: Number): (r: Lib.RasterizeResult)
      reads reg
      requires id in reg.fonts
      ensures var raw := reg.engine.rasterizeIndexed(reg.fonts[id], ToUint32(index), px);
        r.metrics == Lib.MetricsFrom(raw.0) && r.bitmap == raw.1
    {
      Lib.RasterizeIndexed(reg.engine, reg.fonts, id, ToUint32(index), px)
    }

    /** The glyph the font maps the string's first code point to, 0 when the font lacks it. */
    function LookupGlyphIndex(reg: Lib.Registry, character: string): (r: nat)
      reads reg
      requires id in reg.fonts
      ensures r == Fontdue.LookupGlyphIndex(reg.engine, reg.fonts[id], FirstCodePoint(character))
      ensures r == 0 <==> FirstCodePoint(character) !in reg.engine.charToGlyph(reg.fonts[id])
      ensures r < Fontdue.U16_LIMIT
    {
      Lib.LookupGlyphIndex(reg.engine, reg.fonts, id, FirstCodePoint(character))
    }
  }

  /**
   * The character-keyed queries ask the engine for the glyph the font maps
   * the character to; a character missing from the font gets glyph 0, the
   * font's default glyph.
   */
  lemma CharacterQueries(f: Font, reg: Lib.Registry, character: string, px: Number)
    requires f.id in reg.fonts
    ensures var glyphs, c := reg.engine.charToGlyph(reg.fonts[f.id]), FirstCodePoint(character);
      && (f.LookupGlyphIndex(reg, character) == 0 <==> c !in glyphs)
      && (c in glyphs ==>
            var raw := reg.engine.rasterizeIndexed(reg.fonts[f.id], glyphs[c], px);
            && f.LookupGlyphIndex(reg, character) == glyphs[c]
            && f.Metrics(reg, character, px) == Lib.MetricsFrom(reg.engine.metricsIndexed(reg.fonts[f.id], glyphs[c], px))
            && f.Rasterize(reg, character, px).metrics == Lib.MetricsFrom(raw.0)
            && f.Rasterize(reg, character, px).bitmap == raw.1)
      && (c !in glyphs ==>
            && f.Metrics(reg, character, px) == f.MetricsIndexed(reg, 0, px)
            && f.Rasterize(reg, character, px) == f.RasterizeIndexed(reg, 0, px))
  {
  }

  /** Two fonts whose handles hold the same parsed font answer every query alike. */
  lemma SameFaceSameAnswers(f: Font, g: Font, reg: Lib.Registry, character: string, index: int, px: Number)
    requires f.id in reg.fonts && g.id in reg.fonts
    requires reg.fonts[f.id] == reg.fonts[g.id]
    ensures f.HorizontalLineMetrics(reg, px) == g.HorizontalLineMetrics(reg, px)
    ensures f.VerticalLineMetrics(reg, px) == g.VerticalLineMetrics(reg, px)
    ensures f.UnitsPerEm(reg) == g.UnitsPerEm(reg)
    ensures f.ScaleFactor(reg, px) == g.ScaleFactor(reg, px)
    ensures f.LookupGlyphIndex(reg, character) == g.LookupGlyphIndex(reg, character)
    ensures f.Metrics(reg, character, px) == g.Metrics(reg, character, px)
    ensures f.Rasterize(reg, character, px) == g.Rasterize(reg, character, px)
    ensures f.MetricsIndexed(reg, index, px) == g.MetricsIndexed(reg, index, px)
    ensures f.RasterizeIndexed(reg, index, px) == g.RasterizeIndexed(reg, index, px)
  {
  }

  /**
   * `new Font(bytes, options)`: load the font through `fromBytes`; the
   * engine's error is thrown, which is `Err` here.
   */
  method NewFont(reg: Lib.Registry, bytes: seq<byte>, options: Option<LoadOptions>) returns (r: Result<Font, string>)
    requires reg.Valid()
    modifies reg
    ensures reg.Valid()
    ensures match reg.engine.parse(bytes, SettingsFor(options))
      case Ok(face) =>
        && r == Ok(Font(old(reg.index)))
        && (reg.index, reg.fonts) == Lib.Register(old(reg.index), old(reg.fonts), face)
        && reg.loaded == old(reg.loaded) + 1
      case Err(msg) =>
        r == Err(msg) && reg.index == old(reg.index) && reg.fonts == old(reg.fonts) && reg.loaded == old(reg.loaded)
    ensures r.Ok? && old(reg.loaded) < U32_LIMIT ==> r.value.id !in old(reg.fonts)
    ensures old(reg.loaded) < U32_LIMIT ==>
      forall id :: id in old(reg.fonts) ==> id in reg.fonts && reg.fonts[id] == old(reg.fonts)[id]
  {
    var s := SettingsFor(options);
    var handle := reg.FromBytes(bytes, s.enableOffsetBoundingBox, s.collectionIndex, s.scale);
    match handle
    case Ok(id) => r := Ok(Font(id));
    case Err(msg) => r := Err(msg);
  }

  // ----- FontCached: every query behind its own memoized closure -----

  /** A one-number argument list: equal keys mean SameValueZero numbers. */
  lemma NumberKeySameValue(numberToString: Number -> string, x: Number, y: Number)
    requires Js.PrintsLikeJs(numberToString)
    requires Join([numberToString(x)]) == Join([numberToString(y)])
    ensures Js.SameValueZero(x, y)
  {
  }

  /** An `(index, px)` argument list: equal keys mean the same index and SameValueZero sizes. */
  lemma PairKeySameValue(numberToString: Number -> string, i: int, x: Number, j: int, y: Number)
    requires Js.PrintsLikeJs(numberToString)
    requires Join([Js.IntegerToString(i), numberToString(x)]) == Join([Js.IntegerToString(j), numberToString(y)])
    ensures i == j && Js.SameValueZero(x, y)
  {
    var a, b := [Js.IntegerToString(i), numberToString(x)], [Js.IntegerToString(j), numberToString(y)];
    Js.IntegerToStringSound(i, j);
    Js.IntegerToStringSound(j, i);
    JoinInjective(a, b);
    assert a[0] == b[0] && a[1] == b[1];
  }

  /**
   * No key of a number-keyed cache is an inherited property name, so for
   * these caches the record `{}` behaves as an own-keys cache.
   */
  lemma NumberKeysNotInherited(numberToString: Number -> string, i: int, x: Number)
    requires Js.PrintsLikeJs(numberToString)
    ensures Join([numberToString(x)]) !in Js.OBJECT_PROTOTYPE_KEYS
    ensures Join([Js.IntegerToString(i), numberToString(x)]) !in Js.OBJECT_PROTOTYPE_KEYS
  {
    var parts := [Js.IntegerToString(i), numberToString(x)];
    var k := Join(parts);
    assert parts[1..] == [numberToString(x)];
    assert Join(parts[1..]) == numberToString(x);
    assert k == Js.IntegerToString(i) + "," + numberToString(x);
    assert k[|Js.IntegerToString(i)|] == ',';
    Js.InheritedKeysHaveNoComma();
  }

  /** A one-string argument list has its own key. */
  lemma StringKeyInjective(s: string, t: string)
    requires Join([s]) == Join([t])
    ensures s == t
  {
  }

  /** A memoized closure whose cache key `fn` cannot tell apart from its arguments decides its answer. */
  lemma InjectiveKeyDetermines<A(!new), T>(m: Memoized<A, T>)
    requires forall a, b :: m.KeyOf(a) == m.KeyOf(b) ==> a == b
    ensures m.Determined()
  {
  }

  // One predicate per closure: the cache is a memoized call of the matching
  // binding on handle `id`, keyed as `args.join()` keys it.

  ghost predicate HorizontalCache(m: Memoized<Number, Lib.LineMetrics>, e: Lib.Engine,
                                  fonts: map<u32, Fontdue.Face>, id: u32, numberToString: Number -> string)
    reads m
  {
    && id in fonts
    && m.Valid()
    && m.arity == 1
    && (forall px :: m.KeyOf(px) == Join([numberToString(px)]))
    && (forall px :: m.fn(px) == Lib.HorizontalLineMetrics(e, fonts, id, px))
  }

  ghost predicate VerticalCache(m: Memoized<Number, Lib.LineMetrics>, e: Lib.Engine,
                                fonts: map<u32, Fontdue.Face>, id: u32, numberToString: Number -> string)
    reads m
  {
    && id in fonts
    && m.Valid()
    && m.arity == 1
    && (forall px :: m.KeyOf(px) == Join([numberToString(px)]))
    && (forall px :: m.fn(px) == Lib.VerticalLineMetrics(e, fonts, id, px))
  }

  /** A single slot, and every run of the engine filled it. */
  ghost predicate UnitsPerEmCache(m: Memoized<(), real>, e: Lib.Engine, fonts: map<u32, Fontdue.Face>, id: u32)
    reads m
  {
    && id in fonts
    && m.Valid()
    && m.arity == 0
    && (forall u :: m.fn(u) == Some(Lib.UnitsPerEm(e, fonts, id)))
    && m.runs == m.definedRuns
  }

  /** Every run of the engine filled an entry, so it ran at most once per key. */
  ghost predicate ScaleFactorCache(m: Memoized<Number, real>, e: Lib.Engine,
                                   fonts: map<u32, Fontdue.Face>, id: u32, numberToString: Number -> string)
    reads m
  {
    && id in fonts
    && m.Valid()
    && (forall px :: m.KeyOf(px) == Join([numberToString(px)]))
    && (forall px :: m.fn(px) == Some(Lib.ScaleFactor(e, fonts, id, px)))
    && m.runs == m.definedRuns
  }

  /** Keyed by the index in decimal and the size; every run of the engine filled an entry. */
  ghost predicate MetricsIndexedCache(m: Memoized<(int, Number), Lib.Metrics>, e: Lib.Engine,
                                     fonts: map<u32, Fontdue.Face>, id: u32, numberToString: Number -> string)
    reads m
  {
    && id in fonts
    && m.Valid()
    && (forall i, px :: m.KeyOf((i, px)) == Join([Js.IntegerToString(i), numberToString(px)]))
    && (forall i, px :: m.fn((i, px)) == Some(Lib.MetricsIndexed(e, fonts, id, ToUint32(i), px)))
    && m.runs == m.definedRuns
  }

  /** Keyed by the index in decimal and the size; every run of the engine filled an entry. */
  ghost predicate RasterizeIndexedCache(m: Memoized<(int, Number), Lib.RasterizeResult>, e: Lib.Engine,
                                       fonts: map<u32, Fontdue.Face>, id: u32, numberToString: Number -> string)
    reads m
  {
    && id in fonts
    && m.Valid()
    && (forall i, px :: m.KeyOf((i, px)) == Join([Js.IntegerToString(i), numberToString(px)]))
    && (forall i, px :: m.fn((i, px)) == Some(Lib.RasterizeIndexed(e, fonts, id, ToUint32(i), px)))
    && m.runs == m.definedRuns
  }

  /** Keyed by the whole string, which decides the answer; every run of the engine filled an entry. */
  ghost predicate LookupGlyphIndexCache(m: Memoized<string, nat>, e: Lib.Engine, fonts: map<u32, Fontdue.Face>, id: u32)
    reads m
  {
    && id in fonts
    && m.Valid()
    && m.Determined()
    && (forall s :: m.KeyOf(s) == Join([s]))
    && (forall s :: m.fn(s) == Some(Lib.LookupGlyphIndex(e, fonts, id, FirstCodePoint(s))))
    && m.runs == m.definedRuns
  }

  /** `memoize((px) => horizontalLineMetrics(this.#id, px))`. */
  method MemoizeHorizontal(e: Lib.Engine, fonts: map<u32, Fontdue.Face>, id: u32, numberToString: Number -> string)
    returns (m: Memoized<Number, Lib.LineMetrics>)
    requires id in fonts
    ensures fresh(m) && HorizontalCache(m, e, fonts, id, numberToString)
    ensures m.runs == map[] && m.cache == map[]
  {
    m := new Memoized((px: Number) => Lib.HorizontalLineMetrics(e, fonts, id, px), 1,
                      (px: Number) => Join([numberToString(px)]));
  }

  /** `memoize((px) => verticalLineMetrics(this.#id, px))`. */
  method MemoizeVertical(e: Lib.Engine, fonts: map<u32, Fontdue.Face>, id: u32, numberToString: Number -> string)
    returns (m: Memoized<Number, Lib.LineMetrics>)
    requires id in fonts
    ensures fresh(m) && VerticalCache(m, e, fonts, id, numberToString)
    ensures m.runs == map[] && m.cache == map[]
  {
    m := new Memoized((px: Number) => Lib.VerticalLineMetrics(e, fonts, id, px), 1,
                      (px: Number) => Join([numberToString(px)]));
  }

  /** `memoize(() => unitsPerEm(this.#id))`. */
  method MemoizeUnitsPerEm(e: Lib.Engine, fonts: map<u32, Fontdue.Face>, id: u32)
    returns (m: Memoized<(), real>)
    requires id in fonts
    ensures fresh(m) && UnitsPerEmCache(m, e, fonts, id)
    ensures m.runs == map[] && m.slot == None
  {
    m := new Memoized((_: ()) => Some(Lib.UnitsPerEm(e, fonts, id)), 0, (_: ()) => Join([]));
  }

  /** `memoize((px) => scaleFactor(this.#id, px))`. */
  method MemoizeScaleFactor(e: Lib.Engine, fonts: map<u32, Fontdue.Face>, id: u32, numberToString: Number -> string)
    returns (m: Memoized<Number, real>)
    requires id in fonts
    ensures fresh(m) && ScaleFactorCache(m, e, fonts, id, numberToString)
    ensures m.runs == map[] && m.cache == map[]
  {
    m := new Memoized((px: Number) => Some(Lib.ScaleFactor(e, fonts, id, px)), 1,
                      (px: Number) => Join([numberToString(px)]));
  }

  /** `memoize((index, px) => metricsIndexed(this.#id, index, px))`. */
  method MemoizeMetricsIndexed(e: Lib.Engine, fonts: map<u32, Fontdue.Face>, id: u32, numberToString: Number -> string)
    returns (m: Memoized<(int, Number), Lib.Metrics>)
    requires id in fonts
    ensures fresh(m) && MetricsIndexedCache(m, e, fonts, id, numberToString)
    ensures m.runs == map[] && m.cache == map[]
  {
    m := new Memoized((args: (int, Number)) => Some(Lib.MetricsIndexed(e, fonts, id, ToUint32(args.0), args.1)), 2,
                      (args: (int, Number)) => Join([Js.IntegerToString(args.0), numberToString(args.1)]));
  }

  /** `memoize((index, px) => rasterizeIndexed(this.#id, index, px))`. */
  method MemoizeRasterizeIndexed(e: Lib.Engine, fonts: map<u32, Fontdue.Face>, id: u32, numberToString: Number -> string)
    returns (m: Memoized<(int, Number), Lib.RasterizeResult>)
    requires id in fonts
    ensures fresh(m) && RasterizeIndexedCache(m, e, fonts, id, numberToString)
    ensures m.runs == map[] && m.cache == map[]
  {
    m := new Memoized((args: (int, Number)) => Some(Lib.RasterizeIndexed(e, fonts, id, ToUint32(args.0), args.1)), 2,
                      (args: (int, Number)) => Join([Js.IntegerToString(args.0), numberToString(args.1)]));
  }

  /** `memoize((character) => lookupGlyphIndex(this.#id, character))`: the key is the string itself. */
  method MemoizeLookupGlyphIndex(e: Lib.Engine, fonts: map<u32, Fontdue.Face>, id: u32)
    returns (m: Memoized<string, nat>)
    requires id in fonts
    ensures fresh(m) && LookupGlyphIndexCache(m, e, fonts, id)
    ensures m.runs == map[] && m.cache == map[]
  {
    m := new Memoized((s: string) => Some(Lib.LookupGlyphIndex(e, fonts, id, FirstCodePoint(s))), 1,
                      (s: string) => Join([s]));
    forall s, t | m.KeyOf(s) == m.KeyOf(t) ensures s == t {
      StringKeyInjective(s, t);
    }
    InjectiveKeyDetermines(m);
  }

  /**
   * `FontCached`. Its closures capture the handle and, in this model, the
   * registry's contents at construction (`fonts`); the queries require that
   * the live registry still holds the same font under the handle.
   * `numberToString` is how the host turns numbers into key text.
   */
  class FontCached {
    const reg: Lib.Registry
    const id: u32
    const fonts: map<u32, Fontdue.Face>
    const numberToString: Number -> string

    const horizontalLineMetrics: Memoized<Number, Lib.LineMetrics>
    const verticalLineMetrics: Memoized<Number, Lib.LineMetrics>
    const unitsPerEm: Memoized<(), real>
    const scaleFactor: Memoized<Number, real>
    const metricsIndexed: Memoized<(int, Number), Lib.Metrics>
    const rasterizeIndexed: Memoized<(int, Number), Lib.RasterizeResult>
    const lookupGlyphIndex: Memoized<string, nat>

    /** The font captured at construction is still the one registered under the handle. */
    ghost predicate Current()
      reads reg
    {
      id in fonts && id in reg.fonts && reg.fonts[id] == fonts[id]
    }

    /**
     * Each closure is a memoized call of the matching binding on this
     * handle, keyed by its arguments joined with commas, with numbers
     * printed as JavaScript prints them and indices in decimal. The queries
     * whose answer is never `undefined` have run the engine only for their
     * defined entries, so at most once per key.
     */
    ghost predicate Valid()
      reads horizontalLineMetrics, verticalLineMetrics, unitsPerEm, scaleFactor,
            metricsIndexed, rasterizeIndexed, lookupGlyphIndex
    {
      && id in fonts
      && Js.PrintsLikeJs(numberToString)
      && horizontalLineMetrics != verticalLineMetrics
      && HorizontalCache(horizontalLineMetrics, reg.engine, fonts, id, numberToString)
      && VerticalCache(verticalLineMetrics, reg.engine, fonts, id, numberToString)
      && UnitsPerEmCache(unitsPerEm, reg.engine, fonts, id)
      && ScaleFactorCache(scaleFactor, reg.engine, fonts, id, numberToString)
      && MetricsIndexedCache(metricsIndexed, reg.engine, fonts, id, numberToString)
      && RasterizeIndexedCache(rasterizeIndexed, reg.engine, fonts, id, numberToString)
      && LookupGlyphIndexCache(lookupGlyphIndex, reg.engine, fonts, id)
    }

    /** No cache holds anything and the engine has not been asked anything. */
    ghost predicate Unused()
      reads horizontalLineMetrics, verticalLineMetrics, unitsPerEm, scaleFactor,
            metricsIndexed, rasterizeIndexed, lookupGlyphIndex
    {
      && horizontalLineMetrics.runs == map[] && horizontalLineMetrics.cache == map[]
      && verticalLineMetrics.runs == map[] && verticalLineMetrics.cache == map[]
      && unitsPerEm.runs == map[] && unitsPerEm.slot == None
      && scaleFactor.runs == map[] && scaleFactor.cache == map[]
      && metricsIndexed.runs == map[] && metricsIndexed.cache == map[]
      && rasterizeIndexed.runs == map[] && rasterizeIndexed.cache == map[]
      && lookupGlyphIndex.runs == map[] && lookupGlyphIndex.cache == map[]
    }

    /** Installs one memoized closure per query over the handle `id`; every cache starts empty. */
    constructor (reg: Lib.Registry, id: u32, numberToString: Number -> string)
      requires id in reg.fonts
      requires Js.PrintsLikeJs(numberToString)
      ensures Valid() && Current() && Unused()
      ensures this.reg == reg && this.id == id && this.numberToString == numberToString
      ensures fresh(horizontalLineMetrics) && fresh(verticalLineMetrics) && fresh(unitsPerEm) && fresh(scaleFactor)
      ensures fresh(metricsIndexed) && fresh(rasterizeIndexed) && fresh(lookupGlyphIndex)
    {
      var e, fonts := reg.engine, reg.fonts;
      this.reg := reg;
      this.id := id;
      this.fonts := fonts;
      this.numberToString := numberToString;

      var h := MemoizeHorizontal(e, fonts, id, numberToString);
      var v := MemoizeVertical(e, fonts, id, numberToString);
      var u := MemoizeUnitsPerEm(e, fonts, id);
      var s := MemoizeScaleFactor(e, fonts, id, numberToString);
      var m := MemoizeMetricsIndexed(e, fonts, id, numberToString);
      var r := MemoizeRasterizeIndexed(e, fonts, id, numberToString);
      var l := MemoizeLookupGlyphIndex(e, fonts, id);

      horizontalLineMetrics := h;
      verticalLineMetrics := v;
      unitsPerEm := u;
      scaleFactor := s;
      metricsIndexed := m;
      rasterizeIndexed := r;
      lookupGlyphIndex := l;
    }

    /**
     * `new FontCached(bytes, options)`: load the font through `fromBytes`,
     * with the same effect on the registry as `new Font`, then install the
     * memoized closures; the engine's error is thrown, which is `Err` here.
     */
    static method Create(reg: Lib.Registry, bytes: seq<byte>, options: Option<LoadOptions>, numberToString: Number -> string)
      returns (r: Result<FontCached, string>)
      requires reg.Valid() && Js.PrintsLikeJs(numberToString)
      modifies reg
      ensures reg.Valid()
      ensures match reg.engine.parse(bytes, SettingsFor(options))
        case Ok(face) =>
          && r.Ok? && fresh(r.value)
          && fresh(r.value.horizontalLineMetrics) && fresh(r.value.verticalLineMetrics)
          && fresh(r.value.unitsPerEm) && fresh(r.value.scaleFactor) && fresh(r.value.metricsIndexed)
          && fresh(r.value.rasterizeIndexed) && fresh(r.value.lookupGlyphIndex)
          && r.value.Valid() && r.value.Current() && r.value.Unused()
          && r.value.reg == reg && r.value.id == old(reg.index) && r.value.numberToString == numberToString
          && (reg.index, reg.fonts) == Lib.Register(old(reg.index), old(reg.fonts), face)
          && reg.loaded == old(reg.loaded) + 1
        case Err(msg) =>
          r == Err(msg) && reg.index == old(reg.index) && reg.fonts == old(reg.fonts) && reg.loaded == old(reg.loaded)
      ensures r.Ok? && old(reg.loaded) < U32_LIMIT ==> r.value.id !in old(reg.fonts)
      ensures old(reg.loaded) < U32_LIMIT ==>
        forall id :: id in old(reg.fonts) ==> id in reg.fonts && reg.fonts[id] == old(reg.fonts)[id]
    {
      var s := SettingsFor(options);
      var handle := reg.FromBytes(bytes, s.enableOffsetBoundingBox, s.collectionIndex, s.scale);
      match handle
      case Ok(id) =>
        var font := new FontCached(reg, id, numberToString);
        r := Ok(font);
      case Err(msg) =>
        r := Err(msg);
    }

    /**
     * `Font`'s answer for a size that is SameValueZero to `px` (for `px`
     * itself unless `px` is a zero or a NaN); `fn` has given a defined
     * answer at most once for this key, runs again each time the answer is
     * `undefined`, and does not run once a defined answer is stored.
     */
    method HorizontalLineMetrics(px: Number) returns (r: Option<Lib.LineMetrics>)
      requires Valid() && Current()
      modifies horizontalLineMetrics
      ensures Valid()
      ensures var k := horizontalLineMetrics.KeyOf(px);
        && horizontalLineMetrics.Stored(k) == r
        && (old(horizontalLineMetrics.Stored(k)).Some? ==> r == old(horizontalLineMetrics.Stored(k)))
        && (old(horizontalLineMetrics.Stored(k)).None? ==> r == Font(id).HorizontalLineMetrics(reg, px))
      ensures forall k :: k != horizontalLineMetrics.KeyOf(px) ==>
        horizontalLineMetrics.Stored(k) == old(horizontalLineMetrics.Stored(k)) && horizontalLineMetrics.Runs(k) == old(horizontalLineMetrics.Runs(k))
      ensures exists q :: Js.SameValueZero(q, px) && r == Font(id).HorizontalLineMetrics(reg, q)
      ensures !Js.IsZero(px) && !Js.IsNaN(px) ==> r == Font(id).HorizontalLineMetrics(reg, px)
      ensures horizontalLineMetrics.DefinedRuns(horizontalLineMetrics.KeyOf(px)) == (if r.Some? then 1 else 0)
      ensures old(horizontalLineMetrics.Stored(horizontalLineMetrics.KeyOf(px))).None? ==>
        horizontalLineMetrics.Runs(horizontalLineMetrics.KeyOf(px)) == old(horizontalLineMetrics.Runs(horizontalLineMetrics.KeyOf(px))) + 1
      ensures old(horizontalLineMetrics.DefinedRuns(horizontalLineMetrics.KeyOf(px))) == 1 ==>
        horizontalLineMetrics.runs == old(horizontalLineMetrics.runs)
    {
      ghost var from;
      r, from := horizontalLineMetrics.Call(px);
      NumberKeySameValue(numberToString, from, px);
    }

    /** As `HorizontalLineMetrics`, for the vertical line metrics. */
    method VerticalLineMetrics(px: Number) returns (r: Option<Lib.LineMetrics>)
      requires Valid() && Current()
      modifies verticalLineMetrics
      ensures Valid()
      ensures var k := verticalLineMetrics.KeyOf(px);
        && verticalLineMetrics.Stored(k) == r
        && (old(verticalLineMetrics.Stored(k)).Some? ==> r == old(verticalLineMetrics.Stored(k)))
        && (old(verticalLineMetrics.Stored(k)).None? ==> r == Font(id).VerticalLineMetrics(reg, px))
      ensures forall k :: k != verticalLineMetrics.KeyOf(px) ==>
        verticalLineMetrics.Stored(k) == old(verticalLineMetrics.Stored(k)) && verticalLineMetrics.Runs(k) == old(verticalLineMetrics.Runs(k))
      ensures exists q :: Js.SameValueZero(q, px) && r == Font(id).VerticalLineMetrics(reg, q)
      ensures !Js.IsZero(px) && !Js.IsNaN(px) ==> r == Font(id).VerticalLineMetrics(reg, px)
      ensures verticalLineMetrics.DefinedRuns(verticalLineMetrics.KeyOf(px)) == (if r.Some? then 1 else 0)
      ensures old(verticalLineMetrics.Stored(verticalLineMetrics.KeyOf(px))).None? ==>
        verticalLineMetrics.Runs(verticalLineMetrics.KeyOf(px)) == old(verticalLineMetrics.Runs(verticalLineMetrics.KeyOf(px))) + 1
      ensures old(verticalLineMetrics.DefinedRuns(verticalLineMetrics.KeyOf(px))) == 1 ==>
        verticalLineMetrics.runs == old(verticalLineMetrics.runs)
    {
      ghost var from;
      r, from := verticalLineMetrics.Call(px);
      NumberKeySameValue(numberToString, from, px);
    }

    /** `Font`'s answer, computed by the first call only. */
    method UnitsPerEm() returns (r: real)
      requires Valid() && Current()
      modifies unitsPerEm
      ensures Valid()
      ensures r == Font(id).UnitsPerEm(reg)
      ensures unitsPerEm.Runs("") == 1
      ensures old(unitsPerEm.Runs("")) == 1 ==> unitsPerEm.runs == old(unitsPerEm.runs)
    {
      var cached;
      ghost var from;
      cached, from := unitsPerEm.Call(());
      r := cached.value;
    }

    /**
     * `Font`'s answer for a size SameValueZero to `px` (for `px` itself
     * unless it is a zero or a NaN); the engine has run exactly once for
     * this key, and a repeated call runs nothing.
     */
    method ScaleFactor(px: Number) returns (r: real)
      requires Valid() && Current()
      modifies scaleFactor
      ensures Valid()
      ensures var k := scaleFactor.KeyOf(px);
        && scaleFactor.Stored(k) == Some(r)
        && (old(scaleFactor.Stored(k)).Some? ==> Some(r) == old(scaleFactor.Stored(k)))
        && (old(scaleFactor.Stored(k)).None? ==> r == Font(id).ScaleFactor(reg, px))
      ensures forall k :: k != scaleFactor.KeyOf(px) ==>
        scaleFactor.Stored(k) == old(scaleFactor.Stored(k)) && scaleFactor.Runs(k) == old(scaleFactor.Runs(k))
      ensures exists q :: Js.SameValueZero(q, px) && r == Font(id).ScaleFactor(reg, q)
      ensures !Js.IsZero(px) && !Js.IsNaN(px) ==> r == Font(id).ScaleFactor(reg, px)
      ensures scaleFactor.Runs(scaleFactor.KeyOf(px)) == 1
      ensures old(scaleFactor.Runs(scaleFactor.KeyOf(px))) == 1 ==> scaleFactor.runs == old(scaleFactor.runs)
    {
      var cached;
      ghost var from;
      cached, from := scaleFactor.Call(px);
      NumberKeySameValue(numberToString, from, px);
      r := cached.value;
    }

    /**
     * `Font`'s answer at this index for a size SameValueZero to `px` (for
     * `px` itself unless it is a zero or a NaN); the engine has run exactly
     * once for this key, and a repeated call runs nothing.
     */
    method MetricsIndexed(index: int, px: Number) returns (r: Lib.Metrics)
      requires Valid() && Current()
      modifies metricsIndexed
      ensures Valid()
      ensures var k := metricsIndexed.KeyOf((index, px));
        && metricsIndexed.Stored(k) == Some(r)
        && (old(metricsIndexed.Stored(k)).Some? ==> Some(r) == old(metricsIndexed.Stored(k)))
        && (old(metricsIndexed.Stored(k)).None? ==> r == Font(id).MetricsIndexed(reg, index, px))
      ensures forall k :: k != metricsIndexed.KeyOf((index, px)) ==>
        metricsIndexed.Stored(k) == old(metricsIndexed.Stored(k)) && metricsIndexed.Runs(k) == old(metricsIndexed.Runs(k))
      ensures exists q :: Js.SameValueZero(q, px) && r == Font(id).MetricsIndexed(reg, index, q)
      ensures !Js.IsZero(px) && !Js.IsNaN(px) ==> r == Font(id).MetricsIndexed(reg, index, px)
      ensures metricsIndexed.Runs(metricsIndexed.KeyOf((index, px))) == 1
      ensures old(metricsIndexed.Runs(metricsIndexed.KeyOf((index, px)))) == 1 ==>
        metricsIndexed.runs == old(metricsIndexed.runs)
    {
      var cached;
      ghost var from;
      cached, from := metricsIndexed.Call((index, px));
      PairKeySameValue(numberToString, from.0, from.1, index, px);
      r := cached.value;
    }

    /**
     * `Font`'s answer at this index for a size SameValueZero to `px` (for
     * `px` itself unless it is a zero or a NaN); the engine has run exactly
     * once for this key, and a repeated call runs nothing.
     */
    method RasterizeIndexed(index: int, px: Number) returns (r: Lib.RasterizeResult)
      requires Valid() && Current()
      modifies rasterizeIndexed
      ensures Valid()
      ensures var k := rasterizeIndexed.KeyOf((index, px));
        && rasterizeIndexed.Stored(k) == Some(r)
        && (old(rasterizeIndexed.Stored(k)).Some? ==> Some(r) == old(rasterizeIndexed.Stored(k)))
        && (old(rasterizeIndexed.Stored(k)).None? ==> r == Font(id).RasterizeIndexed(reg, index, px))
      ensures forall k :: k != rasterizeIndexed.KeyOf((index, px)) ==>
        rasterizeIndexed.Stored(k) == old(rasterizeIndexed.Stored(k)) && rasterizeIndexed.Runs(k) == old(rasterizeIndexed.Runs(k))
      ensures exists q :: Js.SameValueZero(q, px) && r == Font(id).RasterizeIndexed(reg, index, q)
      ensures !Js.IsZero(px) && !Js.IsNaN(px) ==> r == Font(id).RasterizeIndexed(reg, index, px)
      ensures rasterizeIndexed.Runs(rasterizeIndexed.KeyOf((index, px))) == 1
      ensures old(rasterizeIndexed.Runs(rasterizeIndexed.KeyOf((index, px)))) == 1 ==>
        rasterizeIndexed.runs == old(rasterizeIndexed.runs)
    {
      var cached;
      ghost var from;
      cached, from := rasterizeIndexed.Call((index, px));
      PairKeySameValue(numberToString, from.0, from.1, index, px);
      r := cached.value;
    }

    /** `Font`'s answer; the engine has run exactly once for this string, and a repeated call runs nothing. */
    method LookupGlyphIndex(character: string) returns (r: nat)
      requires Valid() && Current()
      modifies lookupGlyphIndex
      ensures Valid()
      ensures var k := lookupGlyphIndex.KeyOf(character);
        && lookupGlyphIndex.Stored(k) == Some(r)
        && (old(lookupGlyphIndex.Stored(k)).Some? ==> Some(r) == old(lookupGlyphIndex.Stored(k)))
        && (old(lookupGlyphIndex.Stored(k)).None? ==> r == Font(id).LookupGlyphIndex(reg, character))
      ensures forall k :: k != lookupGlyphIndex.KeyOf(character) ==>
        lookupGlyphIndex.Stored(k) == old(lookupGlyphIndex.Stored(k)) && lookupGlyphIndex.Runs(k) == old(lookupGlyphIndex.Runs(k))
      ensures r == Font(id).LookupGlyphIndex(reg, character)
      ensures lookupGlyphIndex.Runs(lookupGlyphIndex.KeyOf(character)) == 1
      ensures old(lookupGlyphIndex.Runs(lookupGlyphIndex.KeyOf(character))) == 1 ==>
        lookupGlyphIndex.runs == old(lookupGlyphIndex.runs)
    {
      var cached;
      ghost var from;
      cached, from := lookupGlyphIndex.Call(character);
      r := cached.value;
    }

    /**
     * Not memoized itself: the memoized glyph lookup composed with the
     * memoized indexed query; `Font`'s answer for a size SameValueZero to
     * `px`, and for `px` itself unless it is a zero or a NaN.
     */
    method Metrics(character: string, px: Number) returns (r: Lib.Metrics)
      requires Valid() && Current()
      modifies lookupGlyphIndex, metricsIndexed
      ensures Valid()
      ensures var k := lookupGlyphIndex.KeyOf(character);
        && lookupGlyphIndex.Stored(k) == Some(Font(id).LookupGlyphIndex(reg, character))
        && lookupGlyphIndex.Runs(k) == 1
        && (old(lookupGlyphIndex.Runs(k)) == 1 ==> lookupGlyphIndex.runs == old(lookupGlyphIndex.runs))
      ensures forall k :: k != lookupGlyphIndex.KeyOf(character) ==>
        lookupGlyphIndex.Stored(k) == old(lookupGlyphIndex.Stored(k)) && lookupGlyphIndex.Runs(k) == old(lookupGlyphIndex.Runs(k))
      ensures var k := metricsIndexed.KeyOf((Font(id).LookupGlyphIndex(reg, character), px));
        && metricsIndexed.Stored(k) == Some(r)
        && metricsIndexed.Runs(k) == 1
        && (old(metricsIndexed.Stored(k)).Some? ==> Some(r) == old(metricsIndexed.Stored(k)))
        && (old(metricsIndexed.Stored(k)).None? ==> r == Font(id).Metrics(reg, character, px))
        && (old(metricsIndexed.Runs(k)) == 1 ==> metricsIndexed.runs == old(metricsIndexed.runs))
      ensures forall k :: k != metricsIndexed.KeyOf((Font(id).LookupGlyphIndex(reg, character), px)) ==>
        metricsIndexed.Stored(k) == old(metricsIndexed.Stored(k)) && metricsIndexed.Runs(k) == old(metricsIndexed.Runs(k))
      ensures exists q :: Js.SameValueZero(q, px) && r == Font(id).Metrics(reg, character, q)
      ensures !Js.IsZero(px) && !Js.IsNaN(px) ==> r == Font(id).Metrics(reg, character, px)
    {
      var index := LookupGlyphIndex(character);
      r := MetricsIndexed(index, px);
      ghost var q :| Js.SameValueZero(q, px) && r == Font(id).MetricsIndexed(reg, index, q);
      assert r == Font(id).Metrics(reg, character, q);
    }

    /**
     * Not memoized itself: the memoized glyph lookup composed with the
     * memoized indexed query; `Font`'s answer for a size SameValueZero to
     * `px`, and for `px` itself unless it is a zero or a NaN.
     */
    method Rasterize(character: string, px: Number) returns (r: Lib.RasterizeResult)
      requires Valid() && Current()
      modifies lookupGlyphIndex, rasterizeIndexed
      ensures Valid()
      ensures var k := lookupGlyphIndex.KeyOf(character);
        && lookupGlyphIndex.Stored(k) == Some(Font(id).LookupGlyphIndex(reg, character))
        && lookupGlyphIndex.Runs(k) == 1
        && (old(lookupGlyphIndex.Runs(k)) == 1 ==> lookupGlyphIndex.runs == old(lookupGlyphIndex.runs))
      ensures forall k :: k != lookupGlyphIndex.KeyOf(character) ==>
        lookupGlyphIndex.Stored(k) == old(lookupGlyphIndex.Stored(k)) && lookupGlyphIndex.Runs(k) == old(lookupGlyphIndex.Runs(k))
      ensures var k := rasterizeIndexed.KeyOf((Font(id).LookupGlyphIndex(reg, character), px));
        && rasterizeIndexed.Stored(k) == Some(r)
        && rasterizeIndexed.Runs(k) == 1
        && (old(rasterizeIndexed.Stored(k)).Some? ==> Some(r) == old(rasterizeIndexed.Stored(k)))
        && (old(rasterizeIndexed.Stored(k)).None? ==> r == Font(id).Rasterize(reg, character, px))
        && (old(rasterizeIndexed.Runs(k)) == 1 ==> rasterizeIndexed.runs == old(rasterizeIndexed.runs))
      ensures forall k :: k != rasterizeIndexed.KeyOf((Font(id).LookupGlyphIndex(reg, character), px)) ==>
        rasterizeIndexed.Stored(k) == old(rasterizeIndexed.Stored(k)) && rasterizeIndexed.Runs(k) == old(rasterizeIndexed.Runs(k))
      ensures exists q :: Js.SameValueZero(q, px) && r == Font(id).Rasterize(reg, character, q)
      ensures !Js.IsZero(px) && !Js.IsNaN(px) ==> r == Font(id).Rasterize(reg, character, px)
    {
      var index := LookupGlyphIndex(character);
      r := RasterizeIndexed(index, px);
      ghost var q :| Js.SameValueZero(q, px) && r == Font(id).RasterizeIndexed(reg, index, q);
      assert r == Font(id).Rasterize(reg, character, q);
    }
  }

  /**
   * The two facades agree: loading the same bytes as a `Font` and then as a
   * `FontCached` either fails both times with the same message or gives two
   * handles on equal fonts whose first answers for a character's metrics
   * coincide at every size. The earlier `Font` stays usable after the
   * second load.
   */
  method FacadesAgree(reg: Lib.Registry, bytes: seq<byte>, options: Option<LoadOptions>,
                      numberToString: Number -> string, character: string, px: Number)
    returns (plain: Result<Lib.Metrics, string>, cached: Result<Lib.Metrics, string>)
    requires reg.Valid() && Js.PrintsLikeJs(numberToString)
    requires reg.loaded + 1 < U32_LIMIT
    modifies reg
    ensures reg.Valid()
    ensures plain.Ok? <==> reg.engine.parse(bytes, SettingsFor(options)).Ok?
    ensures plain.Ok? ==> old(reg.index) in reg.fonts && plain.value == Font(old(reg.index)).Metrics(reg, character, px)
    ensures cached == plain
  {
    var font := NewFont(reg, bytes, options);
    var fontCached := FontCached.Create(reg, bytes, options, numberToString);
    match font
    case Err(msg) =>
      plain, cached := Err(msg), Err(msg);
    case Ok(f) =>
      var c := fontCached.value;
      plain := Ok(f.Metrics(reg, character, px));
      var m := FirstMetricsExact(c, f, character, px);
      cached := Ok(m);
  }

  /**
   * A `FontCached` whose caches are still empty answers `metrics` as `Font`
   * does on a handle holding the same font, for every size: the first call
   * misses and runs the engine at `px` itself.
   */
  method FirstMetricsExact(c: FontCached, f: Font, character: string, px: Number) returns (m: Lib.Metrics)
    requires c.Valid() && c.Current() && c.Unused()
    requires f.id in c.reg.fonts && c.reg.fonts[f.id] == c.reg.fonts[c.id]
    modifies c.lookupGlyphIndex, c.metricsIndexed
    ensures m == f.Metrics(c.reg, character, px)
    ensures c.metricsIndexed.Stored(c.metricsIndexed.KeyOf((Font(c.id).LookupGlyphIndex(c.reg, character), px))) == Some(m)
  {
    assert c.metricsIndexed.Stored(c.metricsIndexed.KeyOf((Font(c.id).LookupGlyphIndex(c.reg, character), px))).None?;
    m := c.Metrics(character, px);
    SameFaceSameAnswers(f, Font(c.id), c.reg, character, 0, px);
  }

  /** A query asked again, even at a zero or a NaN, gets its first answer back from the cache. */
  method RepeatedQueryAgrees(c: FontCached, index: int, px: Number)
    returns (first: Lib.RasterizeResult, again: Lib.RasterizeResult)
    requires c.Valid() && c.Current()
    modifies c.rasterizeIndexed
    ensures again == first
    ensures c.rasterizeIndexed.Runs(c.rasterizeIndexed.KeyOf((index, px))) == 1
  {
    first := c.RasterizeIndexed(index, px);
    again := c.RasterizeIndexed(index, px);
  }

  /** A query at another size leaves the first size's single engine run as it was, so each key runs once over the object's lifetime. */
  method OtherKeysKeepRuns(c: FontCached, px: Number, other: Number) returns (first: real, second: real)
    requires c.Valid() && c.Current()
    modifies c.scaleFactor
    ensures c.scaleFactor.Runs(c.scaleFactor.KeyOf(px)) == 1
    ensures c.scaleFactor.Runs(c.scaleFactor.KeyOf(other)) == 1
    ensures c.scaleFactor.Stored(c.scaleFactor.KeyOf(px)) == Some(first)
  {
    first := c.ScaleFactor(px);
    second := c.ScaleFactor(other);
  }

  /** On a fresh object, a size whose line metrics are defined has run the engine exactly once after the first call. */
  method FirstLineMetricsRunOnce(c: FontCached, px: Number) returns (r: Option<Lib.LineMetrics>)
    requires c.Valid() && c.Current() && c.Unused()
    modifies c.horizontalLineMetrics
    ensures r == Font(c.id).HorizontalLineMetrics(c.reg, px)
    ensures c.horizontalLineMetrics.Runs(c.horizontalLineMetrics.KeyOf(px)) == 1
    ensures c.horizontalLineMetrics.DefinedRuns(c.horizontalLineMetrics.KeyOf(px)) == (if r.Some? then 1 else 0)
  {
    r := c.HorizontalLineMetrics(px);
  }
}

=== FILE: js.dfy ===
/**
 * The JavaScript values the facade works with: numbers as IEEE-754 double
 * bit patterns, what `Number.prototype.toString` is relied on to do, the
 * decimal form of integral numbers, and the names every plain object `{}`
 * inherits from `Object.prototype`.
 */
module Js {

  const F64_LIMIT: int := 0x1_0000_0000_0000_0000
  const SIGN_BIT: int := 0x8000_0000_0000_0000
  /** The bit pattern of +Infinity; a magnitude above it is a NaN. */
  const INFINITY_BITS: int := 0x7FF0_0000_0000_0000

  /** A JavaScript number, as the bit pattern of a double. */
  type Number = x: int | 0 <= x < F64_LIMIT

  const POSITIVE_ZERO: Number := 0
  const NEGATIVE_ZERO: Number := 0x8000_0000_0000_0000
  const CANONICAL_NAN: Number := 0x7FF8_0000_0000_0000
  /** The double 40.0. */
  const FORTY: Number := 0x4044_0000_0000_0000

  predicate IsZero(x: Number)
  {
    x % SIGN_BIT == 0
  }

  predicate IsNaN(x: Number)
  {
    x % SIGN_BIT > INFINITY_BITS
  }

  /** JavaScript's SameValueZero: equal doubles, or both zeros, or both NaN. */
  predicate SameValueZero(x: Number, y: Number)
  {
    x == y || (IsZero(x) && IsZero(y)) || (IsNaN(x) && IsNaN(y))
  }

  /** Every property name a record created as `{}` inherits from `Object.prototype`. */
  const OBJECT_PROTOTYPE_KEYS: set<string> := {
    "constructor", "hasOwnProperty", "isPrototypeOf", "propertyIsEnumerable",
    "toLocaleString", "toString", "valueOf", "__proto__",
    "__defineGetter__", "__defineSetter__", "__lookupGetter__", "__lookupSetter__"}

  /** Every inherited name starts with a lower-case letter or an underscore. */
  lemma InheritedKeysStartWithLetter()
    ensures forall k :: k in OBJECT_PROTOTYPE_KEYS ==> |k| > 0 && ('a' <= k[0] <= 'z' || k[0] == '_')
  {
  }

  /** No inherited name holds a comma. */
  lemma InheritedKeysHaveNoComma()
    ensures forall k :: k in OBJECT_PROTOTYPE_KEYS ==> ',' !in k
  {
  }

  /**
   * What the caches rely on of number-to-string conversion: the text has no
   * comma and never names an inherited property, and two numbers print
   * alike exactly when they are SameValueZero (so 0 and -0 both print "0").
   */
  ghost predicate PrintsLikeJs(numberToString: Number -> string)
  {
    && (forall x :: ',' !in numberToString(x))
    && (forall x :: numberToString(x) !in OBJECT_PROTOTYPE_KEYS)
    && (forall x, y :: numberToString(x) == numberToString(y) <==> SameValueZero(x, y))
  }

  /** The printer's one collision between distinct doubles that are not NaN: the two zeros. */
  lemma ZeroCollision(numberToString: Number -> string)
    requires PrintsLikeJs(numberToString)
    ensures numberToString(POSITIVE_ZERO) == numberToString(NEGATIVE_ZERO)
    ensures POSITIVE_ZERO != NEGATIVE_ZERO
  {
    assert SameValueZero(POSITIVE_ZERO, NEGATIVE_ZERO);
  }

  /** One representative per SameValueZero class. */
  function Canonical(x: Number): (c: Number)
    ensures SameValueZero(x, c)
  {
    if IsNaN(x) then CANONICAL_NAN else if IsZero(x) then POSITIVE_ZERO else x
  }

  /** A printer with the required properties: the canonical bit pattern in unary. */
  function UnaryPrinter(x: Number): string
  {
    seq(Canonical(x), _ => '1')
  }

  /** The requirement can be met: the unary printer meets it. */
  lemma PrintsLikeJsSatisfiable()
    ensures PrintsLikeJs(UnaryPrinter)
  {
    forall x ensures UnaryPrinter(x) !in OBJECT_PROTOTYPE_KEYS {
      var s := UnaryPrinter(x);
      InheritedKeysStartWithLetter();
      assert |s| > 0 ==> s[0] == '1';
    }
    forall x, y | UnaryPrinter(x) == UnaryPrinter(y) ensures SameValueZero(x, y) {
      assert |UnaryPrinter(x)| == Canonical(x) && |UnaryPrinter(y)| == Canonical(y);
    }
    forall x, y | SameValueZero(x, y) ensures UnaryPrinter(x) == UnaryPrinter(y) {
      assert Canonical(x) == Canonical(y);
    }
  }

  // ----- The decimal form of integral numbers -----

  function DigitChar(d: int): (c: char)
    requires 0 <= d < 10
    ensures '0' <= c <= '9'
  {
    (48 + d) as char
  }

  /** The decimal digits of `n`, most significant first, without leading zeros. */
  function Digits(n: nat): (s: string)
    ensures |s| >= 1
    ensures n >= 10 ==> |s| >= 2
    ensures forall i :: 0 <= i < |s| ==> '0' <= s[i] <= '9'
  {
    if n < 10 then [DigitChar(n)] else Digits(n / 10) + [DigitChar(n % 10)]
  }

  /** How `toString` prints an integral number below 10^21 in magnitude. */
  function IntegerToString(i: int): (s: string)
    ensures |s| >= 1
    ensures s[0] == '-' <==> i < 0
    ensures forall k :: 0 < k < |s| ==> '0' <= s[k] <= '9'
  {
    if i < 0 then "-" + Digits(-i) else Digits(i)
  }

  lemma {:induction false} DigitsInjective(a: nat, b: nat)
    requires Digits(a) == Digits(b)
    ensures a == b
  {
    var s := Digits(a);
    if a >= 10 && b >= 10 {
      assert s[|s| - 1] == DigitChar(a % 10) == DigitChar(b % 10);
      assert Digits(a / 10) == s[..|s| - 1] == Digits(b / 10);
      DigitsInjective(a / 10, b / 10);
    } else if a < 10 && b < 10 {
      assert s[0] == DigitChar(a) == DigitChar(b);
    }
  }

  /** Integral numbers print injectively, with no comma and never as an inherited property name. */
  lemma IntegerToStringSound(i: int, j: int)
    ensures IntegerToString(i) == IntegerToString(j) ==> i == j
    ensures ',' !in IntegerToString(i)
    ensures IntegerToString(i) !in OBJECT_PROTOTYPE_KEYS
  {
    var s, t := IntegerToString(i), IntegerToString(j);
    assert i < 0 ==> s[0] == '-';
    assert j < 0 ==> t[0] == '-';
    assert i >= 0 ==> '0' <= s[0] <= '9';
    assert j >= 0 ==> '0' <= t[0] <= '9';
    if s == t {
      if i < 0 && j < 0 {
        assert Digits(-i) == s[1..] == Digits(-j);
        DigitsInjective(-i, -j);
      } else if i >= 0 && j >= 0 {
        DigitsInjective(i, j);
      }
    }
    assert forall k :: 0 <= k < |s| ==> s[k] == '-' || '0' <= s[k] <= '9';
    InheritedKeysStartWithLetter();
  }
}

=== FILE: lib.dfy ===
/**
 * The WebAssembly bindings (src/lib.rs): the value types handed to JavaScript,
 * their conversions from the engine's types, the process-wide registry of
 * loaded fonts (`INDEX` and `FONTS`), and the query functions that look a
 * font up by its handle and ask the engine.
 */
module Lib {
  import opened Wrappers
  import Fontdue
  import Js

  type u32 = Fontdue.u32
  type i32 = Fontdue.i32
  type byte = Fontdue.byte
  type Face = Fontdue.Face
  type Engine = Fontdue.Engine
  const U32_LIMIT := Fontdue.U32_LIMIT

  // ----- Value types returned to JavaScript -----

  datatype OutlineBounds = OutlineBounds(xmin: real, ymin: real, width: real, height: real)

  datatype Metrics = Metrics(
    xmin: i32, ymin: i32, width: nat, height: nat,
    advanceWidth: real, advanceHeight: real, bounds: OutlineBounds)

  datatype LineMetrics = LineMetrics(ascent: real, descent: real, lineGap: real, newLineSize: real)

  datatype RasterizeResult = RasterizeResult(metrics: Metrics, bitmap: seq<byte>)

  // ----- `From` conversions -----

  /** `OutlineBounds::from`: every field is carried over unchanged. */
  function OutlineBoundsFrom(b: Fontdue.OutlineBounds): (r: OutlineBounds)
    ensures r.xmin == b.xmin && r.ymin == b.ymin
    ensures r.width == b.width && r.height == b.height
  {
    OutlineBounds(b.xmin, b.ymin, b.width, b.height)
  }

  /** `Metrics::from`: every field is carried over unchanged, the bounds through `OutlineBounds::from`. */
  function MetricsFrom(m: Fontdue.Metrics): (r: Metrics)
    ensures r.xmin == m.xmin && r.ymin == m.ymin
    ensures r.width == m.width && r.height == m.height
    ensures r.advanceWidth == m.advanceWidth && r.advanceHeight == m.advanceHeight
    ensures r.bounds.xmin == m.bounds.xmin && r.bounds.ymin == m.bounds.ymin
    ensures r.bounds.width == m.bounds.width && r.bounds.height == m.bounds.height
  {
    Metrics(m.xmin, m.ymin, m.width, m.height, m.advanceWidth, m.advanceHeight,
            OutlineBoundsFrom(m.bounds))
  }

  /** `LineMetrics::from`: every field is carried over unchanged. */
  function LineMetricsFrom(l: Fontdue.LineMetrics): (r: LineMetrics)
    ensures r.ascent == l.ascent && r.descent == l.descent
    ensures r.lineGap == l.lineGap && r.newLineSize == l.newLineSize
  {
    LineMetrics(l.ascent, l.descent, l.lineGap, l.newLineSize)
  }

  /** The conversions lose nothing: two engine values convert to the same binding value only if they are equal. */
  lemma ConversionsLossless(a: Fontdue.Metrics, b: Fontdue.Metrics, x: Fontdue.LineMetrics, y: Fontdue.LineMetrics)
    ensures MetricsFrom(a) == MetricsFrom(b) <==> a == b
    ensures LineMetricsFrom(x) == LineMetricsFrom(y) <==> x == y
  {
  }

  // ----- The registry of loaded fonts: `INDEX` and `FONTS` -----

  /**
   * The registry's invariant. `loaded` counts the successful loads so far;
   * the 32-bit counter is that count modulo 2^32 (`fetch_add` wraps), and
   * every handle in use was handed out by one of those loads.
   */
  ghost predicate RegistryInv(index: u32, fonts: map<u32, Face>, loaded: nat)
  {
    && index == loaded % U32_LIMIT
    && forall id :: id in fonts ==> id < loaded
  }

  /** The state after one successful load: the font goes in under the counter's old value, and the counter moves on. */
  function Register(index: u32, fonts: map<u32, Face>, face: Face): (r: (u32, map<u32, Face>))
    ensures index in r.1 && r.1[index] == face
    ensures forall id :: id != index ==> (id in r.1 <==> id in fonts)
    ensures forall id :: id != index && id in fonts ==> r.1[id] == fonts[id]
    ensures r.0 == index + 1 || (index == U32_LIMIT - 1 && r.0 == 0)
  {
    ((index + 1) % U32_LIMIT, fonts[index := face])
  }

  /** One load keeps the invariant, and while fewer than 2^32 loads happened the new handle is fresh and no stored font changes. */
  lemma RegisterKeepsInv(index: u32, fonts: map<u32, Face>, loaded: nat, face: Face)
    requires RegistryInv(index, fonts, loaded)
    ensures RegistryInv(Register(index, fonts, face).0, Register(index, fonts, face).1, loaded + 1)
    ensures loaded < U32_LIMIT ==> index !in fonts
    ensures loaded < U32_LIMIT ==> forall id :: id in fonts ==> id in Register(index, fonts, face).1 && Register(index, fonts, face).1[id] == fonts[id]
  {
  }

  /** While the counter has not wrapped, every stored handle is below it. */
  lemma HandlesBelowCounter(index: u32, fonts: map<u32, Face>, loaded: nat)
    requires RegistryInv(index, fonts, loaded) && loaded < U32_LIMIT
    ensures forall id :: id in fonts ==> id < index
    ensures index !in fonts
  {
  }

  /** The registry after loading `faces` one after another into an empty registry. */
  function RegisterAll(faces: seq<Face>): (u32, map<u32, Face>)
  {
    if faces == [] then (0, map[])
    else
      var s := RegisterAll(faces[..|faces| - 1]);
      Register(s.0, s.1, faces[|faces| - 1])
  }

  /** Handles are handed out as 0, 1, 2, ...: the k-th font loaded is found under handle k, and the counter equals the number of loads. */
  lemma {:induction false} RegisterAllSequential(faces: seq<Face>)
    requires |faces| < U32_LIMIT
    ensures RegisterAll(faces).0 == |faces|
    ensures forall id: u32 :: id in RegisterAll(faces).1 <==> id < |faces|
    ensures forall k :: 0 <= k < |faces| ==> RegisterAll(faces).1[k] == faces[k]
  {
    if faces != [] {
      var n := |faces| - 1;
      var prefix := faces[..n];
      RegisterAllSequential(prefix);
      assert forall k :: 0 <= k < n ==> prefix[k] == faces[k];
    }
  }

  /**
   * `INDEX` and `FONTS` (single-threaded; the mutex and the atomic are not
   * modelled). `loaded` is the number of successful loads.
   */
  class Registry {
    const engine: Engine
    var index: u32
    var fonts: map<u32, Face>
    ghost var loaded: nat

    ghost predicate Valid()
      reads this
    {
      RegistryInv(index, fonts, loaded)
    }

    /** The registry at start-up: counter 0, no fonts. */
    constructor (engine: Engine)
      ensures Valid()
      ensures this.engine == engine
      ensures index == 0 && fonts == map[] && loaded == 0
    {
      this.engine := engine;
      index := 0;
      fonts := map[];
      loaded := 0;
    }

    /**
     * `from_bytes`: parse the font; on success store it under the counter's
     * old value, bump the counter by one and return that handle; on failure
     * change nothing and return the engine's message.
     */
    method FromBytes(bytes: seq<byte>, enableOffsetBoundingBox: bool, collectionIndex: u32, scale: Js.Number)
      returns (r: Result<u32, string>)
      requires Valid()
      modifies this
      ensures Valid()
      ensures match engine.parse(bytes, Fontdue.Settings(enableOffsetBoundingBox, collectionIndex, scale))
        case Ok(face) =>
          && r == Ok(old(index))
          && (index, fonts) == Register(old(index), old(fonts), face)
          && loaded == old(loaded) + 1
        case Err(msg) =>
          r == Err(msg) && index == old(index) && fonts == old(fonts) && loaded == old(loaded)
      ensures r.Ok? && old(loaded) < U32_LIMIT ==> r.value !in old(fonts)
      ensures old(loaded) < U32_LIMIT ==>
        forall id :: id in old(fonts) ==> id in fonts && fonts[id] == old(fonts)[id]
    {
      match engine.parse(bytes, Fontdue.Settings(enableOffsetBoundingBox, collectionIndex, scale))
      case Ok(face) =>
        RegisterKeepsInv(index, fonts, loaded, face);
        var id := index;
        index := (index + 1) % U32_LIMIT;
        fonts := fonts[id := face];
        loaded := loaded + 1;
        r := Ok(id);
      case Err(msg) =>
        r := Err(msg);
    }
  }

  // ----- Queries: each looks the handle up (`get(&id).unwrap()`) and asks the engine -----

  /** `horizontal_line_metrics`: `undefined` exactly when the engine has none, the converted metrics otherwise. */
  function HorizontalLineMetrics(e: Engine, fonts: map<u32, Face>, id: u32, px: Js.Number): (r: Option<LineMetrics>)
    requires id in fonts
    ensures r.None? <==> e.horizontalLineMetrics(fonts[id], px).None?
    ensures r.Some? ==> r.value == LineMetricsFrom(e.horizontalLineMetrics(fonts[id], px).value)
  {
    match e.horizontalLineMetrics(fonts[id], px)
    case Some(m) => Some(LineMetricsFrom(m))
    case None => None
  }

  /** `vertical_line_metrics`: `undefined` exactly when the engine has none, the converted metrics otherwise. */
  function VerticalLineMetrics(e: Engine, fonts: map<u32, Face>, id: u32, px: Js.Number): (r: Option<LineMetrics>)
    requires id in fonts
    ensures r.None? <==> e.verticalLineMetrics(fonts[id], px).None?
    ensures r.Some? ==> r.value == LineMetricsFrom(e.verticalLineMetrics(fonts[id], px).value)
  {
    match e.verticalLineMetrics(fonts[id], px)
    case Some(m) => Some(LineMetricsFrom(m))
    case None => None
  }

  /** `units_per_em`: the stored font's units per em. */
  function UnitsPerEm(e: Engine, fonts: map<u32, Face>, id: u32): (r: real)
    requires id in fonts
    ensures r == e.unitsPerEm(fonts[id])
  {
    e.unitsPerEm(fonts[id])
  }

  /** `scale_factor`: the stored font's scale factor at `px`. */
  function ScaleFactor(e: Engine, fonts: map<u32, Face>, id: u32, px: Js.Number): (r: real)
    requires id in fonts
    ensures r == e.scaleFactor(fonts[id], px)
  {
    e.scaleFactor(fonts[id], px)
  }

  /** `metrics_indexed`: the engine's metrics for the glyph, converted field by field. */
  function MetricsIndexed(e: Engine, fonts: map<u32, Face>, id: u32, index: u32, px: Js.Number): (r: Metrics)
    requires id in fonts
    ensures r == MetricsFrom(e.metricsIndexed(fonts[id], index, px))
  {
    MetricsFrom(e.metricsIndexed(fonts[id], index, px))
  }

  /** `rasterize_indexed`: the engine's metrics (converted) paired with the engine's bitmap, unmodified. */
  function RasterizeIndexed(e: Engine, fonts: map<u32, Face>, id: u32, index: u32, px: Js.Number): (r: RasterizeResult)
    requires id in fonts
    ensures r.metrics == MetricsFrom(e.rasterizeIndexed(fonts[id], index, px).0)
    ensures r.bitmap == e.rasterizeIndexed(fonts[id], index, px).1
  {
    var (metrics, bitmap) := e.rasterizeIndexed(fonts[id], index, px);
    RasterizeResult(MetricsFrom(metrics), bitmap)
  }

  /** `lookup_glyph_index`: the stored font's glyph for the character, 0 when it has none. */
  function LookupGlyphIndex(e: Engine, fonts: map<u32, Face>, id: u32, c: char): (r: nat)
    requires id in fonts
    ensures r == 0 <==> c !in e.charToGlyph(fonts[id])
    ensures r == Fontdue.LookupGlyphIndex(e, fonts[id], c)
  {
    Fontdue.LookupGlyphIndex(e, fonts[id], c)
  }
}

=== FILE: memoize.dfy ===
/**
 * `memoize` (mod.ts): wraps a function in a cache it updates in place.
 * A function of no parameters gets a single slot; any other gets a record
 * keyed by its arguments joined with commas. A stored `undefined` counts as
 * a miss, so a function that returns `undefined` is run again every time.
 */
module Memoize {
  import opened Wrappers
  import Js

  /** `Array.prototype.join()` with the default separator, over arguments already turned into strings. */
  function Join(parts: seq<string>): (r: string)
    ensures |parts| > 0 ==> parts[0] <= r
    ensures |parts| > 0 ==> |r| == TotalLength(parts) + |parts| - 1
  {
    if |parts| == 0 then ""
    else if |parts| == 1 then parts[0]
    else parts[0] + "," + Join(parts[1..])
  }

  ghost function TotalLength(parts: seq<string>): nat
  {
    if |parts| == 0 then 0 else |parts[0]| + TotalLength(parts[1..])
  }

  ghost predicate CommaFree(parts: seq<string>)
  {
    forall i :: 0 <= i < |parts| ==> ',' !in parts[i]
  }

  /** Two comma-free words followed by a comma can only be split one way. */
  lemma SplitAtFirstComma(x: string, s: string, y: string, t: string)
    requires ',' !in x && ',' !in y
    requires x + "," + s == y + "," + t
    ensures x == y && s == t
  {
    var u, v := x + "," + s, y + "," + t;
    assert u[|x|] == ',' && v[|y|] == ',';
    assert forall i :: 0 <= i < |x| ==> u[i] == x[i] != ',';
    assert forall i :: 0 <= i < |y| ==> v[i] == y[i] != ',';
    assert |x| == |y|;
    assert x == u[..|x|] == v[..|y|] == y;
    assert s == u[|x| + 1..] == v[|y| + 1..] == t;
  }

  /** Joining is injective on argument lists of one length whose strings hold no comma. */
  lemma {:induction false} JoinInjective(a: seq<string>, b: seq<string>)
    requires |a| == |b| && CommaFree(a) && CommaFree(b)
    requires Join(a) == Join(b)
    ensures a == b
  {
    if |a| >= 2 {
      SplitAtFirstComma(a[0], Join(a[1..]), b[0], Join(b[1..]));
      assert CommaFree(a[1..]) && CommaFree(b[1..]);
      JoinInjective(a[1..], b[1..]);
      assert a == [a[0]] + a[1..] && b == [b[0]] + b[1..];
    }
  }

  /** Without those conditions joining is not injective: one argument holding a comma collides with two arguments. */
  lemma JoinCollides()
    ensures Join(["1,2"]) == Join(["1", "2"])
    ensures ["1,2"] != ["1", "2"]
  {
  }

  /**
   * The closure `memoize(fn)` returns, with the cache it captures.
   * `arity` is `fn.length`; `key` turns an argument tuple into `args.join()`.
   * The ghost state records, per cache key ("" stands for the single slot),
   * which arguments last ran `fn` (`origin`), how often `fn` ran (`runs`) and
   * how many of those runs gave a defined answer (`definedRuns`).
   */
  class Memoized<A(!new), T> {
    const fn: A -> Option<T>
    const arity: nat
    const key: A -> string
    var slot: Option<T>
    var cache: map<string, Option<T>>
    ghost var origin: map<string, A>
    ghost var runs: map<string, nat>
    ghost var definedRuns: map<string, nat>

    /** The cache key a call with `a` uses. */
    ghost function KeyOf(a: A): string
    {
      if arity == 0 then "" else key(a)
    }

    /** What the cache holds for key `k`; `None` is both "absent" and "stored `undefined`". */
    ghost function Stored(k: string): Option<T>
      reads this
    {
      if arity == 0 then (if k == "" then slot else None)
      else if k in cache then cache[k]
      else None
    }

    ghost function Runs(k: string): nat
      reads this
    {
      if k in runs then runs[k] else 0
    }

    ghost function DefinedRuns(k: string): nat
      reads this
    {
      if k in definedRuns then definedRuns[k] else 0
    }

    /** `fn` depends only on the cache key of its arguments. */
    ghost predicate Determined()
    {
      forall a, b :: KeyOf(a) == KeyOf(b) ==> fn(a) == fn(b)
    }

    /**
     * Every defined entry is `fn`'s answer for arguments with that key, and
     * `fn` gave a defined answer for a key exactly once if the entry is
     * defined and never otherwise.
     */
    ghost predicate Valid()
      reads this
    {
      && (arity == 0 ==> cache == map[])
      && (forall k :: k in origin ==> KeyOf(origin[k]) == k)
      && (forall k :: Stored(k).Some? ==> k in origin && fn(origin[k]) == Stored(k))
      && (forall k :: DefinedRuns(k) == (if Stored(k).Some? then 1 else 0))
    }

    /** `memoize(fn)`: an empty slot, or an empty record. */
    constructor (fn: A -> Option<T>, arity: nat, key: A -> string)
      ensures Valid()
      ensures this.fn == fn && this.arity == arity && this.key == key
      ensures slot == None && cache == map[] && runs == map[] && definedRuns == map[]
    {
      this.fn := fn;
      this.arity := arity;
      this.key := key;
      slot := None;
      cache := map[];
      origin := map[];
      runs := map[];
      definedRuns := map[];
    }

    /**
     * One call of the memoized closure. A hit returns the stored answer,
     * which `fn` gave for arguments `from` with the same key, and runs
     * nothing; a miss runs `fn(a)` once and writes it under its own key only.
     * When `fn` depends only on the key, the answer is `fn(a)`; when `fn`
     * always answers, every run of it filled an entry.
     */
    method Call(a: A) returns (r: Option<T>, ghost from: A)
      requires Valid()
      modifies this
      ensures Valid()
      ensures KeyOf(from) == KeyOf(a) && r == fn(from)
      ensures old(Stored(KeyOf(a))).Some? ==> r == old(Stored(KeyOf(a)))
      ensures old(Stored(KeyOf(a))).None? ==> from == a
      ensures forall k :: k != KeyOf(a) ==> Stored(k) == old(Stored(k)) && Runs(k) == old(Runs(k))
      ensures Stored(KeyOf(a)) == r
      ensures old(Stored(KeyOf(a))).None? ==> r == fn(a)
      ensures old(Stored(KeyOf(a))).None? ==> Runs(KeyOf(a)) == old(Runs(KeyOf(a))) + 1
      ensures old(Stored(KeyOf(a))).Some? ==> runs == old(runs)
      ensures runs == (if old(Stored(KeyOf(a))).None?
                       then old(runs)[KeyOf(a) := old(Runs(KeyOf(a))) + 1]
                       else old(runs))
      ensures definedRuns == (if old(Stored(KeyOf(a))).None? && fn(a).Some?
                              then old(definedRuns)[KeyOf(a) := 1]
                              else old(definedRuns))
      ensures DefinedRuns(KeyOf(a)) == (if r.Some? then 1 else 0)
      ensures Determined() ==> r == fn(a)
      ensures fn(a).Some? && old(runs) == old(definedRuns) ==> runs == definedRuns
      ensures arity == 0 ==>
        cache == old(cache) && slot == (if old(slot).None? then fn(a) else old(slot))
      ensures arity != 0 ==>
        && slot == old(slot)
        && cache == (if old(Stored(key(a))).None? then old(cache)[key(a) := fn(a)] else old(cache))
    {
      ghost var balanced := runs == definedRuns;
      // a miss finds no defined run for its key
      assert Stored(KeyOf(a)).None? && balanced ==> Runs(KeyOf(a)) == DefinedRuns(KeyOf(a)) == 0;
      if arity == 0 {
        r, from := CallSlot(a);
      } else {
        r, from := CallRecord(a);
      }
    }

    /** The closure for `fn.length === 0`: fill the single slot while it holds `undefined`. */
    method CallSlot(a: A) returns (r: Option<T>, ghost from: A)
      requires Valid() && arity == 0
      modifies this
      ensures Valid()
      ensures KeyOf(from) == KeyOf(a) && r == fn(from)
      ensures old(Stored(KeyOf(a))).Some? ==> r == old(Stored(KeyOf(a)))
      ensures old(Stored(KeyOf(a))).None? ==> from == a
      ensures forall k :: k != KeyOf(a) ==> Stored(k) == old(Stored(k))
      ensures runs == (if old(Stored(KeyOf(a))).None?
                       then old(runs)[KeyOf(a) := old(Runs(KeyOf(a))) + 1]
                       else old(runs))
      ensures definedRuns == (if old(Stored(KeyOf(a))).None? && fn(a).Some?
                              then old(definedRuns)[KeyOf(a) := 1]
                              else old(definedRuns))
      ensures DefinedRuns(KeyOf(a)) == (if r.Some? then 1 else 0)
      ensures cache == old(cache) && slot == (if old(slot).None? then fn(a) else old(slot))
    {
      ghost var k := KeyOf(a);
      from := if slot.Some? then origin[k] else a;
      if slot.None? {
        slot := fn(a);
        origin := origin[k := a];
        runs := runs[k := Runs(k) + 1];
        definedRuns := if fn(a).Some? then definedRuns[k := 1] else definedRuns;
      }
      r := slot;
      assert forall k' :: k' != k ==> Stored(k') == old(Stored(k')) && DefinedRuns(k') == old(DefinedRuns(k'));
    }

    /** The closure for any other arity: fill the record's entry for `args.join()` while it reads `undefined`. */
    method CallRecord(a: A) returns (r: Option<T>, ghost from: A)
      requires Valid() && arity != 0
      modifies this
      ensures Valid()
      ensures KeyOf(from) == KeyOf(a) && r == fn(from)
      ensures old(Stored(KeyOf(a))).Some? ==> r == old(Stored(KeyOf(a)))
      ensures old(Stored(KeyOf(a))).None? ==> from == a
      ensures forall k :: k != KeyOf(a) ==> Stored(k) == old(Stored(k))
      ensures runs == (if old(Stored(KeyOf(a))).None?
                       then old(runs)[KeyOf(a) := old(Runs(KeyOf(a))) + 1]
                       else old(runs))
      ensures definedRuns == (if old(Stored(KeyOf(a))).None? && fn(a).Some?
                              then old(definedRuns)[KeyOf(a) := 1]
                              else old(definedRuns))
      ensures DefinedRuns(KeyOf(a)) == (if r.Some? then 1 else 0)
      ensures slot == old(slot)
      ensures cache == (if old(Stored(key(a))).None? then old(cache)[key(a) := fn(a)] else old(cache))
    {
      var key := key(a);
      assert KeyOf(a) == key;
      from := if key in cache && cache[key].Some? then origin[key] else a;
      if key !in cache || cache[key].None? {
        cache := cache[key := fn(a)];
        origin := origin[key := a];
        runs := runs[key := Runs(key) + 1];
        definedRuns := if fn(a).Some? then definedRuns[key := 1] else definedRuns;
        assert forall k :: k != key ==> Stored(k) == old(Stored(k)) && DefinedRuns(k) == old(DefinedRuns(k));
      }
      r := cache[key];
    }
  }

  // ----- The record as JavaScript creates it -----

  /** A property read: no such property, an own property, or one inherited from `Object.prototype`. */
  datatype Property<T> = Undefined | Own(value: T) | Inherited(name: string)

  /** Reading `cache[k]` from a record created as `{}` that holds the entries `cache`. */
  function RecordGet<T>(cache: map<string, Option<T>>, k: string): (p: Property<T>)
    ensures p.Inherited? <==> k !in cache && k in Js.OBJECT_PROTOTYPE_KEYS
    ensures p.Own? <==> k in cache && cache[k].Some?
    ensures p.Own? ==> p.value == cache[k].value
  {
    if k in cache then (if cache[k].Some? then Own(cache[k].value) else Undefined)
    else if k in Js.OBJECT_PROTOTYPE_KEYS then Inherited(k)
    else Undefined
  }

  /**
   * The keyed branch of the closure on a `{}` record, as written: the value
   * returned, the record afterwards, and whether `fn` ran. `answer` is what
   * `fn(...args)` returns; only an `undefined` read makes it run.
   */
  function RecordCall<T>(cache: map<string, Option<T>>, k: string, answer: Option<T>)
    : (r: (Property<T>, map<string, Option<T>>, bool))
    ensures r.2 <==> RecordGet(cache, k).Undefined?
    ensures r.2 ==> r.1 == cache[k := answer] && r.0 == (if answer.Some? then Own(answer.value) else Undefined)
    ensures !r.2 ==> r.1 == cache && r.0 == RecordGet(cache, k)
  {
    match RecordGet(cache, k)
    case Undefined =>
      (if answer.Some? then Own(answer.value) else Undefined, cache[k := answer], true)
    case other => (other, cache, false)
  }

  /**
   * As written, a fresh cache answers the key "constructor" with the
   * inherited `Object` function and never runs `fn`, whatever `fn` would
   * have answered.
   */
  lemma InheritedKeyAnsweredWithoutRun<T>(answer: Option<T>)
    ensures RecordCall(map[], "constructor", answer).0 == Inherited("constructor")
    ensures !RecordCall(map[], "constructor", answer).2
  {
    assert "constructor" in Js.OBJECT_PROTOTYPE_KEYS;
  }

  /**
   * For every key that is not an inherited name, the record as written
   * behaves like the own-keys cache `Memoized` keeps: a hit returns the
   * stored answer, anything else runs `fn` and stores its answer.
   */
  lemma RecordCallOffPrototype<T>(cache: map<string, Option<T>>, k: string, answer: Option<T>)
    requires k !in Js.OBJECT_PROTOTYPE_KEYS
    ensures var stored := if k in cache then cache[k] else None;
      RecordCall(cache, k, answer) ==
        if stored.Some? then (Own(stored.value), cache, false)
        else (if answer.Some? then Own(answer.value) else Undefined, cache[k := answer], true)
  {
  }
}

=== FILE: wrappers.dfy ===
/** Option and Result, the two shapes the bindings use for "no value" and "thrown error". */
module Wrappers {

  /** `None` stands for JavaScript's `undefined` / Rust's `None`. */
  datatype Option<+T> = None | Some(value: T)
  {
    function GetOr(default: T): T
    {
      match this
      case Some(v) => v
      case None => default
    }
  }

  /** `Err` carries the message of an error the bindings throw. */
  datatype Result<+R, +E> = Ok(value: R) | Err(error: E)
}
